=== FILE: README.md ===
# EventosMVC decision logic in Dafny

This project models the decision logic of the EventosMVC web application, an
ASP.NET Core MVC front end for event registration. The application itself is
glue: it forwards forms to remote Auth, Eventos, Participantes and Inscricao
APIs and renders what comes back. What it decides on its own is modelled here
as pure functions over immutable records:

- **Session construction** (`AccountController`). The claim list of the
  cookie identity is built from the submitted e-mail, the raw bearer token and
  the token's role claims. The model also covers cookie persistence and
  expiry, and the choice between re-rendering the form, redirecting home and
  signing in, for login, registration and logout.
- **Registration join** (`InscricaoService`). Every registration is joined
  with its event and participant lookups, with fixed placeholders when a
  lookup fails. Registration creation and the "events with open slots" filter
  are modelled too.
- **Controller decisions** (`EventosController`, `ParticipantesController`).
  These cover not-found redirects, route/body id checks, the "403" message
  rewrite, the per-action role gating of the `[Authorize]` attributes, and the
  ownership check on the participant's "sub" claim.
- **Validation rules** of the view models (`EventosViewModel`,
  `RegistroViewModel`, `InscricaoViewModel`, `ParticipantesViewModel`), as
  predicates built from one predicate per data-annotation attribute.

Every remote call, JWT decoding, clock read and framework check is an explicit
input. Each remote reply is a parameter, such as `TokenReply`, `ServiceReply`,
`Reply<T>` or a lookup function. The JWT reader is a function from token to
claims or failure. "Now" is a tick count (`Time.Date`). `ModelState.IsValid`
is "the form bound without error" (an input) conjoined with the model's
validation predicate. Each action's outcome records the service calls it made,
in order, so "never calls X" is a statement about that list. Signing in is a
`SignIn` value carrying the claims, persistence and expiry. Signing out is a
flag. The browser's cookie is the last `SignIn` issued, and a later request
authenticates as its claims only before its expiry. TempData is a `Flash` value.

Modules follow the source files: `Wrappers`, `Text` (the .NET string
primitives), `Int32Text` (`int.ToString` / `int.Parse`), `Seqs` (LINQ
`Where`), `Time`, `Claims`, `Mvc`, `Annotations`, one module per view model,
`InscricaoDto`, `InscricaoService`, `AccountController`, `EventosController`
and `ParticipantesController`.

Some resolutions and observations:

- `InscricaoDTO.DataInscricao` is `DateTime?`, while
  `InscricaoViewModel.DataInscricao` is declared a plain `DateTime`. The
  service nevertheless applies `??=` to the view-model field and copies the
  nullable DTO value into it, which only type-checks for a nullable field. The
  model follows the code and makes the view-model field an `Option<Date>`.
- C# strings can be `null` after model binding or JSON deserialisation. So
  every string property is an `NString = Option<string>`. This makes
  `evento?.Titulo ?? "Evento desconhecido"` produce the placeholder also for
  an event whose title is null, and makes `[Required]` reject null.
- `[StringLength]` counts UTF-16 code units, so lengths are measured with
  `Text.Utf16Length`. A character outside the Basic Multilingual Plane counts
  twice.
- The session built at login never contains a "sub" claim. `ParticipantesController`
  therefore always derives participant id 0 for such a session, and
  `ParticipantesController.LoginSessionUpdatesOnlyZero` proves that only
  profile 0 can ever be updated by it. The model keeps this behaviour as
  written.
- `Mensagem.Contains("403")` is a substring test on the service message
  `"Erro ao apagar evento: {StatusCode}. {body}"` (EventosMVC/Services/EventosService.cs:96).
  `HttpStatusCode` interpolates as its name, so a 403 reply renders
  "Forbidden". The rendered status is kept as an uninterpreted input, and the
  rewrite triggers exactly when the rendered status or the response body
  contains "403". With .NET's rendering, a 403 reply gets the
  SuperAdmin-only text only when its body mentions 403.

## Model

| member | source | states |
|---|---|---|
| Text.Utf16Length | EventosMVC/Models/EventosViewModel.cs:11 | string length as `[StringLength]` measures it (UTF-16 code units) lies between the character count and twice it |
| Int32Text.ParseInt32 | EventosMVC/Controllers/ParticipantesController.cs:21 | definition of `int.Parse`; see `Int32Text.ParseFormatRoundTrip`, `Int32Text.ParseSkipsLeadingWhite` and `Int32Text.ParseRejectsLetters` |
| Int32Text.FormatInt | EventosMVC/Models/InscricaoViewModel.cs:34 | `int.ToString()` gives non-empty text ending in a digit, starting with '-' exactly for negative values, all digits otherwise; see `Int32Text.ParseFormatRoundTrip` |
| Int32Text.ParseFormatRoundTrip | EventosMVC/Controllers/ParticipantesController.cs:21 | `int.Parse` of the decimal text of any 32-bit integer gives the integer back |
| Int32Text.ParseZero | EventosMVC/Controllers/ParticipantesController.cs:21 | the fallback text "0" used for an absent "sub" claim parses to 0 |
| Int32Text.ParseSkipsLeadingWhite | EventosMVC/Controllers/ParticipantesController.cs:21 | `int.Parse` ignores white space in front of the number |
| Int32Text.ParseRejectsLetters | EventosMVC/Controllers/ParticipantesController.cs:58 | text containing a character that is not a digit, sign or number white space makes `int.Parse` throw |
| Seqs.Filter | EventosMVC/Services/InscricaoService.cs:140 | `Where` keeps exactly the elements satisfying the predicate, each taken from the input |
| Seqs.FilterAppend | EventosMVC/Services/InscricaoService.cs:140 | `Where` distributes over concatenation, so input order is kept |
| Seqs.FilterMultiplicity | EventosMVC/Services/InscricaoService.cs:140 | `Where` keeps every copy of a kept value (no deduplication) |
| Claims.FindFirst | EventosMVC/Controllers/ParticipantesController.cs:21 | `FindFirst` returns the first claim of the list whose type matches ignoring case (no earlier claim matches), and nothing exactly when no claim matches |
| Mvc.Authorize | EventosMVC/Controllers/EventosController.cs:8-37 | `[AllowAnonymous]` always admits; otherwise anonymous users are challenged; `[Authorize]` admits every signed-in user; a role policy admits a signed-in user exactly when the user is in one of its roles; a signed-in user is never challenged (one lacking the roles is forbidden) |
| EventosModel.Valid | EventosMVC/Models/EventosViewModel.cs:10-44 | definition of the annotations; see `EventosModel.ValidFieldBounds`, `EventosModel.VagasRuleIsPositivity` and `EventosModel.ImagemUrlUnconstrained` |
| EventosModel.ValidFieldBounds | EventosMVC/Models/EventosViewModel.cs:10-40 | a valid event has non-blank title, city, admission, description and venue, title 1 to 100 characters and at most 100 code units, description at most 500 and venue at most 200 code units, and at least one slot |
| EventosModel.VagasRuleIsPositivity | EventosMVC/Models/EventosViewModel.cs:38-40 | on a 32-bit value the `[Range(1, int.MaxValue)]` rule is exactly "at least one slot" |
| EventosModel.ImagemUrlUnconstrained | EventosMVC/Models/EventosViewModel.cs:42-44 | changing `ImagemUrl`, even to null, never changes validity |
| EventosModel.NewEventoDefaults | EventosMVC/Models/EventosViewModel.cs:13-40 | a fresh event is invalid, its defaults "Gratuita" and one slot meet their own rules, and filling the four blank texts makes it valid |
| RegistroModel.Valid | EventosMVC/Models/RegistroViewModel.cs:7-31 | definition of the annotations; see `RegistroModel.AllFieldsRequired` and `RegistroModel.ConfirmationInheritsLength` |
| RegistroModel.AllFieldsRequired | EventosMVC/Models/RegistroViewModel.cs:7-31 | a null or blank name, e-mail, phone, password or confirmation makes the form invalid |
| RegistroModel.ConfirmationInheritsLength | EventosMVC/Models/RegistroViewModel.cs:21-31 | in a valid form the confirmation equals the password and so is 6 to 100 code units long |
| RegistroModel.MismatchInvalid | EventosMVC/Models/RegistroViewModel.cs:29 | a confirmation different from the password makes the form invalid |
| RegistroModel.PasswordLengthCountsCodeUnits | EventosMVC/Models/RegistroViewModel.cs:23 | the 6..100 bound counts code units: three astral characters pass, "abc" fails |
| RegistroModel.NewRegistroInvalid | EventosMVC/Models/RegistroViewModel.cs:9-31 | a fresh registration form is invalid |
| ParticipantesModel.Valid | EventosMVC/Models/ParticipantesViewModel.cs:10-22 | definition of the annotations; see `ParticipantesModel.ValidProfileBounds` and `ParticipantesModel.TelefoneOptional` |
| ParticipantesModel.ValidProfileBounds | EventosMVC/Models/ParticipantesViewModel.cs:10-18 | a valid profile has a non-blank name of 1 to 100 characters and a non-blank, well-formed e-mail |
| ParticipantesModel.TelefoneOptional | EventosMVC/Models/ParticipantesViewModel.cs:20-22 | a missing phone never invalidates a profile, and without one validity depends on name and e-mail only |
| ParticipantesModel.EmailRequired | EventosMVC/Models/ParticipantesViewModel.cs:15-18 | a null or blank e-mail makes the profile invalid whatever the format check says |
| ParticipantesModel.NewParticipanteInvalid | EventosMVC/Models/ParticipantesViewModel.cs:13-18 | a fresh profile is invalid because name and e-mail start empty |
| InscricaoModel.NomeEvento | EventosMVC/Models/InscricaoViewModel.cs:34 | definition of the interpolated display name; see `InscricaoModel.NomeEventoRoundTrip` |
| InscricaoModel.Valid | EventosMVC/Models/InscricaoViewModel.cs:8-39 | definition of the annotations; see `InscricaoModel.ValidNamesBounds` and `InscricaoModel.IdsUnconstrained` |
| InscricaoModel.NomeEventoRoundTrip | EventosMVC/Models/InscricaoViewModel.cs:34 | `NomeEvento` is the event name, then " (ID: ", then text that parses back to `EventoId`, then ")" |
| InscricaoModel.ValidNamesBounds | EventosMVC/Models/InscricaoViewModel.cs:15-27 | a valid registration has both display names non-blank, at least one character and at most 100 UTF-16 code units long |
| InscricaoModel.IdsUnconstrained | EventosMVC/Models/InscricaoViewModel.cs:11-22 | `[Required]` on the integer ids imposes nothing: any ids keep validity unchanged |
| InscricaoModel.NewInscricaoInvalid | EventosMVC/Models/InscricaoViewModel.cs:18-39 | a fresh registration is invalid (both names empty) and its location starts empty |
| InscricaoService.Enrich | EventosMVC/Services/InscricaoService.cs:66-76 | the display record copies the registration's ids and date and describes the event and participant lookups, with placeholders for failed ones |
| InscricaoService.GetAllInscricoes | EventosMVC/Services/InscricaoService.cs:42-80 | empty on a failed or null listing; otherwise one record per registration in order, ids and date copied, event fields from title/date/city or the placeholders, and one event and one participant request per registration |
| InscricaoService.Payload | EventosMVC/Services/InscricaoService.cs:88-93 | the posted body carries only the ids and the date of the model |
| InscricaoService.CreateInscricao | EventosMVC/Services/InscricaoService.cs:83-130 | the date is filled with "now" only when absent; a failed POST or null body gives null with no lookups; otherwise the record comes from the returned registration with the listing's placeholder rules |
| InscricaoService.GetEventosDisponiveis | EventosMVC/Services/InscricaoService.cs:133-141 | empty on a failed or null listing; otherwise exactly the listed events with slots left |
| InscricaoService.AvailableKeepsOrder | EventosMVC/Services/InscricaoService.cs:140 | the available events keep listing order and every copy of an event with slots |
| AccountController.RoleClaims | EventosMVC/Controllers/AccountController.cs:57-61 | every added claim has the `ClaimTypes.Role` type and there are at most as many as token claims |
| AccountController.RoleClaimsAreRetypedFilter | EventosMVC/Controllers/AccountController.cs:57-61 | the added role claims are the token's "role"/"roles"/`ClaimTypes.Role` claims in token order, re-typed, values kept, not deduplicated |
| AccountController.RoleClaimsCarry | EventosMVC/Controllers/AccountController.cs:57-61 | a role value appears among the added claims exactly when some role-typed token claim carries it |
| AccountController.SessionClaims | EventosMVC/Controllers/AccountController.cs:50-61 | the claim list starts with Name = submitted e-mail and "JWT" = raw token, followed by the role claims |
| AccountController.Ticket | EventosMVC/Controllers/AccountController.cs:68-74 | remember-me gives a persistent cookie expiring in 7 days, otherwise a session cookie expiring in 1 hour |
| AccountController.RememberMeOutlasts | EventosMVC/Controllers/AccountController.cs:70-73 | every ticket expires after issue; the remembered one outlives the other by 167 hours |
| AccountController.Login | EventosMVC/Controllers/AccountController.cs:26-84 | invalid model state re-renders without calling the authenticator; a null/empty token shows "Usuário ou senha inválidos"; a non-empty token whose JWT reads signs in with the session claims and the remember-me ticket and redirects home; an unreadable JWT or a thrown authentication re-renders with "Erro ao autenticar: " and the message; sign-in happens exactly when redirecting home |
| AccountController.Logout | EventosMVC/Controllers/AccountController.cs:91-96 | always signs out and redirects to the login page with the logout message |
| AccountController.Register | EventosMVC/Controllers/AccountController.cs:107-167 | invalid model state calls nothing; failed or throwing registration re-renders with the service message or "Erro ao registrar: " and no login attempt; after success a non-empty token whose JWT reads signs in persistently for 7 days and redirects home, a null/empty token redirects home without sign-in, and a thrown login or unreadable JWT re-renders with "Erro ao registrar: " and the message |
| AccountController.NextCookie | EventosMVC/Controllers/AccountController.cs:65-74 | signing out deletes the authentication cookie, signing in replaces it with the new ticket, anything else keeps it |
| AccountController.PrincipalAt | EventosMVC/Program.cs:28-35 | a request authenticates as the cookie's claims exactly when a cookie is present and its `ExpiresUtc` is still in the future, and as nobody otherwise |
| AccountController.NextPrincipal | EventosMVC/Controllers/AccountController.cs:65-74 | a request at a given instant after signing out is anonymous; after signing in it carries the ticket's claims exactly until the ticket's expiry and is anonymous from then on; after anything else it is whatever the old cookie still authenticates |
| AccountController.LogoutEndsSession | EventosMVC/Controllers/AccountController.cs:93 | after logout every non-anonymous action challenges the user, at any later instant |
| AccountController.LoginSessionLifetime | EventosMVC/Controllers/AccountController.cs:65-74 | a login session is signed in exactly until seven days (with "remember me") or one hour (without) after the login, and from then on every protected action challenges the user |
| Claims.IsInRole | EventosMVC/Controllers/EventosController.cs:36-108 | definition of the role test behind `[Authorize(Roles = ...)]`; see `AccountController.SessionRolesAreTokenRoles` and `EventosController.RoleGating` |
| AccountController.SessionRolesAreTokenRoles | EventosMVC/Controllers/AccountController.cs:50-61 | a session user is in a role exactly when the token carries that role under a role claim type |
| AccountController.LoginEstablishesIdentity | EventosMVC/Controllers/AccountController.cs:50-74 | after a successful login the identity's name is the submitted e-mail and its roles are the token's roles |
| AccountController.RegisterEstablishesIdentity | EventosMVC/Controllers/AccountController.cs:129-157 | after a registration that signs in, the identity's name is the registered e-mail, its roles are the token's roles, and the cookie is persistent until now + 7 days |
| EventosController.PolicyOf | EventosMVC/Controllers/EventosController.cs:8-108 | definition of the per-action attribute table; see `EventosController.RoleGating` |
| EventosController.RoleGating | EventosMVC/Controllers/EventosController.cs:8-108 | Index and Details admit everyone; Create and Edit exactly Admin or SuperAdmin; Delete exactly SuperAdmin; Delete access implies Edit access; anonymous users are challenged elsewhere |
| EventosController.IndexAction | EventosMVC/Controllers/EventosController.cs:18-23 | lists the service's events, an empty list for null |
| EventosController.DetailsAction | EventosMVC/Controllers/EventosController.cs:24-34 | one lookup; a missing event redirects to Index with "Evento não encontrado.", a found one renders the Details view (see also `EventosController.LookupPagesAgree`) |
| EventosController.EditFormAction | EventosMVC/Controllers/EventosController.cs:58-68 | one lookup; a missing event redirects to Index with "Evento não encontrado.", a found one renders the Edit form |
| EventosController.DeleteFormAction | EventosMVC/Controllers/EventosController.cs:96-106 | one lookup; a missing event redirects to Index with "Evento não encontrado.", a found one renders the Delete confirmation |
| EventosController.ShowOrNotFound | EventosMVC/Controllers/EventosController.cs:25-34 | one lookup; a missing event redirects to Index with "Evento não encontrado.", a found one is rendered |
| EventosController.LookupPagesAgree | EventosMVC/Controllers/EventosController.cs:58-106 | Details, Edit (GET) and Delete (GET) redirect identically on a missing event and render their own view otherwise |
| EventosController.CreateFormAction | EventosMVC/Controllers/EventosController.cs:36-37 | the empty create form, no service call |
| EventosController.ReplyFlash | EventosMVC/Controllers/EventosController.cs:49-56 | the flash key follows the service flag and the message is passed through |
| EventosController.CreateSubmitAction | EventosMVC/Controllers/EventosController.cs:39-57 | always re-renders the form; invalid model state calls nothing; a valid one calls create once, flash key from the flag |
| EventosController.NoSlotsNeverSent | EventosMVC/Controllers/EventosController.cs:44-45 | an event with no slots is refused before any API call, whatever the API would answer |
| EventosController.EditSubmitAction | EventosMVC/Controllers/EventosController.cs:70-94 | route id ≠ body id redirects with "ID inválido." before validation and without update; otherwise re-renders, updating only on valid model state |
| EventosController.UpdateTargetsRouteId | EventosMVC/Controllers/EventosController.cs:75-84 | every update sent targets the route id, which equals the body's id |
| EventosController.DeleteFailureText | EventosMVC/Controllers/EventosController.cs:121-127 | a failure message containing "403" becomes the SuperAdmin-only text, any other is shown unchanged |
| EventosController.DeleteConfirmedAction | EventosMVC/Controllers/EventosController.cs:108-129 | always one delete call and a redirect to Index; success shows the service message, failure the rewritten one |
| EventosController.DeleteFailureMessage | EventosMVC/Services/EventosService.cs:95-96 | definition of the service's failure message; see `EventosController.MessageMentions403` |
| EventosController.MessageMentions403 | EventosMVC/Services/EventosService.cs:95-96 | the composed delete-failure message contains "403" exactly when the rendered status or the body does |
| EventosController.ForbiddenRewrite | EventosMVC/Controllers/EventosController.cs:121-125 | a failed delete shows the SuperAdmin-only text exactly when the rendered status or the body contains "403", and the service message otherwise |
| ParticipantesController.SubjectId | EventosMVC/Controllers/ParticipantesController.cs:21 | an absent "sub" claim gives participant id 0 |
| ParticipantesController.SubjectIdReadsFirstSub | EventosMVC/Controllers/ParticipantesController.cs:37 | a first "sub" claim holding the decimal text of n gives id n |
| ParticipantesController.SubjectIdRejectsLetters | EventosMVC/Controllers/ParticipantesController.cs:58 | a first "sub" claim containing any character other than a digit, a sign or number white space (a letter of any case or script, punctuation) makes the parse throw |
| ParticipantesController.LoginSessionAddressesParticipantZero | EventosMVC/Controllers/AccountController.cs:50-61 | a session built at login has no "sub" claim, so its participant id is 0 |
| ParticipantesController.IndexAction | EventosMVC/Controllers/ParticipantesController.cs:19-31 | one lookup of the subject id; a missing profile redirects home with an error; an unparsable "sub" escapes as an exception |
| ParticipantesController.EditFormAction | EventosMVC/Controllers/ParticipantesController.cs:34-47 | one lookup of the subject id; a missing profile redirects to Index with "Participante não encontrado." |
| ParticipantesController.ProfilePagesAgree | EventosMVC/Controllers/ParticipantesController.cs:19-47 | the profile page and the edit form make the same lookup, fail together on an unparsable "sub", render the same profile when found, and differ only in redirect target and message when it is missing |
| ParticipantesController.LoginSessionProfilePages | EventosMVC/Controllers/ParticipantesController.cs:21-37 | with a session built at login both profile pages look up participant 0 |
| ParticipantesController.EditSubmitAction | EventosMVC/Controllers/ParticipantesController.cs:50-76 | invalid model state re-renders with no update; a parse failure shows "Erro ao atualizar perfil: "; a foreign id redirects with "Não é permitido editar outro participante." and no update; a matching id updates with that id and reports success |
| ParticipantesController.UpdatesOnlyOwnProfile | EventosMVC/Controllers/ParticipantesController.cs:60-69 | any update sent is for the subject's own id, and the outcome does not depend on what the update returned |
| ParticipantesController.LoginSessionUpdatesOnlyZero | EventosMVC/Controllers/ParticipantesController.cs:58-66 | with a session built at login, only participant 0 can be updated |

## Left out

- Remote services: `EventosService`, `AutenticacaoService` and `ParticipantesService` are thin HTTP adapters. Only their result shapes are modelled, as inputs. So are the base URLs, the bearer header attachment (section 2.1 of RFC 6750) and JSON (de)serialisation.
- JWT decoding (RFC 7519, `JwtSecurityTokenHandler.ReadJwtToken`) is a function parameter from token to claims or failure. Claim-type mapping and array expansion inside the reader are the reader's business.
- `TokenViewModel`, `UsuarioViewModel` and `ResultadoViewModel` are not part of this model. A null `ResultadoViewModel` or a throwing `Registrar` is the `RegisterThrew` case.
- Exception messages (`ex.Message`) are uninterpreted strings supplied as inputs. The network exceptions that `EventosService` and `InscricaoService` let escape are not modelled. Neither is a `null` element inside a JSON list.
- `InscricaoService.GetAllInscricoes`, `InscricaoService.CreateInscricao` and `InscricaoService.GetEventosDisponiveis`: `ReadFromJsonAsync` can throw a `JsonException` on a malformed or empty body even after a success status (EventosMVC/Services/InscricaoService.cs:48, 57, 63, 104, 110, 116, 139). `Reply` has no case for that. In the source, one bad event or participant body aborts the whole listing or creation with the exception instead of falling back to the placeholder, and a bad listing body aborts instead of giving an empty list. The contracts of these three operations hold only for bodies that deserialise.
- AccountController.NextPrincipal: the cookie handler keeps its default sliding expiration (EventosMVC/Program.cs:28-35 sets neither `SlidingExpiration` nor `ExpireTimeSpan`). A request made after more than half of the ticket's lifetime reissues it with a fresh window of the same length. The model keeps the expiry fixed at the login's `ExpiresUtc`, so it describes a session with no such renewing request. The browser dropping a non-persistent cookie when it closes is not modelled either.
- Cookie encryption and transport, TempData storage, view rendering, anti-forgery validation, async/await and `Console.WriteLine` logging are framework behaviour and not modelled. The expiry arithmetic does not model `DateTimeOffset` overflow near its maximum.
- `[EmailAddress]` and `[Phone]` are abstract predicates (`Annotations.Formats`). The validation error messages and ModelState's per-field error keys are not modelled, only validity.
- If the project file enables nullable reference types, ASP.NET Core adds an implicit `[Required(AllowEmptyStrings = true)]` to every non-nullable string property, for example `ImagemUrl` and `Telefone`; that attribute rejects only a null value and accepts an empty or blank string. The project file is not part of this model, which follows the declared attributes only.
- `Text.EqualsIgnoreCase` folds only ASCII letters. `FindFirst` and `IsInRole` compare claim types with ordinal-ignore-case, which also folds some non-ASCII letters.
- `Int32Text.ParseInt32` models `NumberStyles.Integer` with the invariant culture's sign symbols. It does not model the trailing NUL characters that .NET also accepts. `Int32Text.FormatInt` likewise uses the invariant "-" sign.
- `EventosController.RoleGating`: the role lists are written out as parsed from the attribute strings. The comma splitting and trimming of `Roles = "Admin,SuperAdmin"` is not modelled.
- `Program.cs` (service registration, middleware, routes) and `HomeController` carry no decision logic. `Program.cs` (lines 23-25) registers no `IParticipantesService`, so as wired `ParticipantesController` cannot be activated and every one of its actions fails before running. The modelled outcomes of that controller assume the service is registered. The cookie scheme's login and access-denied paths appear only as the `Challenge` and `Forbidden` access results.
- `InscricaoService.Api`: each lookup reply is a function of the id, so two registrations of the same event or participant get the same reply, while the service sends a separate GET for each. No property here depends on replies differing between repeated requests.
- `InscricoesController` is context. It consumes the service model and is not modelled itself.

=== FILE: account_controller.dfy ===
/** `AccountController`: login, logout and registration. The authenticator's
    replies, the JWT reader and the clock are inputs; signing in and out of
    the cookie scheme become fields of the outcome. */
module AccountController {
  import opened Wrappers
  import opened Text
  import opened Time
  import opened Seqs
  import opened Claims
  import opened Mvc
  import opened Annotations
  import opened RegistroModel

  /** `LoginViewModel`. */
  datatype LoginForm = LoginForm(email: NString, password: NString, rememberMe: bool)

  /** `ModelState.IsValid` for a login post: the form bound without error and
      meets its attributes (e-mail required and well formed, password required). */
  predicate LoginModelState(bindingOk: bool, form: LoginForm, f: Formats)
  {
    bindingOk && Required(form.email) && EmailAddress(form.email, f) && Required(form.password)
  }

  /** `ModelState.IsValid` for a registration post. */
  predicate RegisterModelState(bindingOk: bool, form: Registro, f: Formats)
  {
    bindingOk && RegistroModel.Valid(form, f)
  }

  /** What `Autenticar` does: throw (its own exception on a non-success
      status, or a transport failure), or return a token view model whose
      `Token` may be null (`None` also stands for a null view model). */
  datatype TokenReply = Threw(message: string) | Returned(token: NString)

  /** What `Registrar` does: throw, or return its success flag and message. */
  datatype RegisterReply = RegisterThrew(message: string) | Registered(sucesso: bool, mensagem: string)

  /** The calls made to the authentication service, in order. */
  datatype AuthCall = Autenticar(email: NString, senha: NString) | Registrar(form: Registro)

  /** A cookie sign-in: the identity's claims and the authentication properties. */
  datatype SignIn = SignIn(claims: seq<Claim>, persistent: bool, expiresUtc: int)

  datatype Page = LoginPage(login: LoginForm) | RegisterPage(registro: Registro)

  datatype AccountOutcome = AccountOutcome(
    response: Response<Page>,
    flash: Flash,
    signIn: Option<SignIn>,
    signOut: bool,
    calls: seq<AuthCall>)

  /** The token claim types copied into the session as roles, compared ordinally. */
  predicate IsRoleClaim(c: Claim)
  {
    c.claimType == "role" || c.claimType == "roles" || c.claimType == RoleType
  }

  function AsRole(c: Claim): Claim
  {
    Claim(RoleType, c.value)
  }

  /** The role claims added to the session, one per role claim of the token. */
  function RoleClaims(jwt: seq<Claim>): (r: seq<Claim>)
    ensures |r| <= |jwt|
    ensures forall i :: 0 <= i < |r| ==> r[i].claimType == RoleType
  {
    if jwt == [] then []
    else (if IsRoleClaim(jwt[0]) then [AsRole(jwt[0])] else []) + RoleClaims(jwt[1..])
  }

  /** The role claims are exactly the token's role-typed claims, in token
      order, re-typed to `ClaimTypes.Role` with their values kept. */
  lemma {:induction false} RoleClaimsAreRetypedFilter(jwt: seq<Claim>)
    ensures var kept := Filter(IsRoleClaim, jwt);
            |RoleClaims(jwt)| == |kept|
            && forall i :: 0 <= i < |kept| ==> RoleClaims(jwt)[i] == AsRole(kept[i])
  {
    if jwt != [] {
      var rest := jwt[1..];
      RoleClaimsAreRetypedFilter(rest);
      if IsRoleClaim(jwt[0]) {
        var kept, keptRest := Filter(IsRoleClaim, jwt), Filter(IsRoleClaim, rest);
        var roles, rolesRest := RoleClaims(jwt), RoleClaims(rest);
        assert kept == [jwt[0]] + keptRest;
        assert roles == [AsRole(jwt[0])] + rolesRest;
        forall i | 0 <= i < |kept|
          ensures roles[i] == AsRole(kept[i])
        {
          if i > 0 {
            assert kept[i] == keptRest[i - 1] && roles[i] == rolesRest[i - 1];
          }
        }
      } else {
        assert Filter(IsRoleClaim, jwt) == Filter(IsRoleClaim, rest);
        assert RoleClaims(jwt) == RoleClaims(rest);
      }
    }
  }

  /** Some re-typed role claim carries `role` exactly when some role-typed
      token claim does. */
  lemma RoleClaimsCarry(jwt: seq<Claim>, role: string)
    ensures (exists i :: 0 <= i < |RoleClaims(jwt)| && RoleClaims(jwt)[i].value == role)
        <==> (exists j :: 0 <= j < |jwt| && IsRoleClaim(jwt[j]) && jwt[j].value == role)
  {
    var kept := Filter(IsRoleClaim, jwt);
    var rc := RoleClaims(jwt);
    RoleClaimsAreRetypedFilter(jwt);
    if i :| 0 <= i < |rc| && rc[i].value == role {
      assert kept[i] in jwt && IsRoleClaim(kept[i]);
      var j :| 0 <= j < |jwt| && jwt[j] == kept[i];
      assert IsRoleClaim(jwt[j]) && jwt[j].value == role;
    }
    if j :| 0 <= j < |jwt| && IsRoleClaim(jwt[j]) && jwt[j].value == role {
      assert jwt[j] in kept;
      var i :| 0 <= i < |kept| && kept[i] == jwt[j];
      assert rc[i].value == role;
    }
  }

  /** The claims of the session identity: the submitted e-mail as the name,
      the raw token under "JWT", then the token's roles. */
  function SessionClaims(email: string, token: string, jwt: seq<Claim>): (r: seq<Claim>)
    ensures |r| >= 2 && r[0] == Claim(NameType, email) && r[1] == Claim(JwtType, token)
    ensures r[2..] == RoleClaims(jwt)
  {
    [Claim(NameType, email), Claim(JwtType, token)] + RoleClaims(jwt)
  }

  /** The authentication properties: "remember me" makes a persistent cookie
      for seven days, otherwise a session cookie for one hour. */
  function Ticket(claims: seq<Claim>, rememberMe: bool, now: int): (t: SignIn)
    ensures t.claims == claims && t.persistent == rememberMe
    ensures t.expiresUtc == if rememberMe then AddDays(now, 7) else AddHours(now, 1)
  {
    SignIn(claims, rememberMe, if rememberMe then AddDays(now, 7) else AddHours(now, 1))
  }

  /** Every ticket expires after it is issued, and a remembered one outlives
      an unremembered one issued at the same instant by 167 hours. */
  lemma RememberMeOutlasts(claims: seq<Claim>, now: int)
    ensures Ticket(claims, false, now).expiresUtc > now
    ensures Ticket(claims, true, now).expiresUtc - Ticket(claims, false, now).expiresUtc == 167 * TicksPerHour
  {
  }

  const InvalidCredentials: string := "Usuário ou senha inválidos"
  const LoginSucceeded: string := "Login realizado com sucesso!"
  const LogoutSucceeded: string := "Logout realizado com sucesso!"
  const RegisterSucceeded: string := "Conta registrada e login realizado com sucesso!"
  const LoginErrorPrefix: string := "Erro ao autenticar: "
  const RegisterErrorPrefix: string := "Erro ao registrar: "

  /** `Login(LoginViewModel)` (POST) at instant `now`. */
  function Login(form: LoginForm, bindingOk: bool, f: Formats, now: int, auth: TokenReply,
                 readJwt: string -> Result<seq<Claim>, string>): (r: AccountOutcome)
    ensures !LoginModelState(bindingOk, form, f) ==>
              r == AccountOutcome(View(LoginPage(form)), NoFlash, None, false, [])
    ensures LoginModelState(bindingOk, form, f) ==> r.calls == [Autenticar(form.email, form.password)]
    ensures r.response == View(LoginPage(form)) || r.response == Redirect("Index", "Home")
    ensures r.signIn.Some? <==> r.response == Redirect("Index", "Home")
    ensures !r.signOut
    ensures LoginModelState(bindingOk, form, f) && auth.Returned? && IsNullOrEmpty(auth.token) ==>
              r.flash == Erro(InvalidCredentials) && r.signIn.None?
    ensures LoginModelState(bindingOk, form, f) && auth.Threw? ==>
              r.flash == Erro(LoginErrorPrefix + auth.message) && r.signIn.None?
    ensures r.signIn.Some? ==>
              && form.email.Some? && auth.Returned? && auth.token.Some?
              && readJwt(auth.token.value).Success?
              && r.signIn.value == Ticket(SessionClaims(form.email.value, auth.token.value, readJwt(auth.token.value).value),
                                          form.rememberMe, now)
              && r.flash == Sucesso(LoginSucceeded)
    ensures LoginModelState(bindingOk, form, f) && auth.Returned? && !IsNullOrEmpty(auth.token) ==>
              match readJwt(auth.token.value)
              case Success(jwt) =>
                && r.response == Redirect("Index", "Home")
                && r.signIn == Some(Ticket(SessionClaims(form.email.value, auth.token.value, jwt), form.rememberMe, now))
              case Failure(m) =>
                r.response == View(LoginPage(form)) && r.flash == Erro(LoginErrorPrefix + m) && r.signIn.None?
  {
    if !LoginModelState(bindingOk, form, f) then
      AccountOutcome(View(LoginPage(form)), NoFlash, None, false, [])
    else
      var calls := [Autenticar(form.email, form.password)];
      match auth
      case Threw(m) =>
        AccountOutcome(View(LoginPage(form)), Erro(LoginErrorPrefix + m), None, false, calls)
      case Returned(token) =>
        if IsNullOrEmpty(token) then
          AccountOutcome(View(LoginPage(form)), Erro(InvalidCredentials), None, false, calls)
        else
          match readJwt(token.value)
          case Failure(m) =>
            AccountOutcome(View(LoginPage(form)), Erro(LoginErrorPrefix + m), None, false, calls)
          case Success(jwt) =>
            var ticket := Ticket(SessionClaims(form.email.value, token.value, jwt), form.rememberMe, now);
            AccountOutcome(Redirect("Index", "Home"), Sucesso(LoginSucceeded), Some(ticket), false, calls)
  }

  /** `Logout()`: always signs out and returns to the login page. */
  function Logout(): (r: AccountOutcome)
    ensures r.signOut && r.signIn.None? && r.calls == []
    ensures r.response == Redirect("Login", "Account") && r.flash == Sucesso(LogoutSucceeded)
  {
    AccountOutcome(Redirect("Login", "Account"), Sucesso(LogoutSucceeded), None, true, [])
  }

  /** `Register(RegistroViewModel)` (POST) at instant `now`: register, then
      log in automatically with the same e-mail and password. */
  function Register(form: Registro, bindingOk: bool, f: Formats, now: int, reg: RegisterReply, auth: TokenReply,
                    readJwt: string -> Result<seq<Claim>, string>): (r: AccountOutcome)
    ensures !RegisterModelState(bindingOk, form, f) ==>
              r == AccountOutcome(View(RegisterPage(form)), NoFlash, None, false, [])
    ensures r.response == View(RegisterPage(form)) || r.response == Redirect("Index", "Home")
    ensures !r.signOut
    ensures RegisterModelState(bindingOk, form, f) && reg.Registered? && !reg.sucesso ==>
              r == AccountOutcome(View(RegisterPage(form)), Erro(reg.mensagem), None, false, [Registrar(form)])
    ensures RegisterModelState(bindingOk, form, f) && reg.RegisterThrew? ==>
              r == AccountOutcome(View(RegisterPage(form)), Erro(RegisterErrorPrefix + reg.message), None, false, [Registrar(form)])
    ensures RegisterModelState(bindingOk, form, f) && reg.Registered? && reg.sucesso ==>
              r.calls == [Registrar(form), Autenticar(form.email, form.senha)]
    ensures r.response.Redirect? ==> r.flash == Sucesso(RegisterSucceeded) && reg.Registered? && reg.sucesso
    ensures r.signIn.Some? ==>
              && r.response.Redirect?
              && form.email.Some? && auth.Returned? && auth.token.Some?
              && readJwt(auth.token.value).Success?
              && r.signIn.value == Ticket(SessionClaims(form.email.value, auth.token.value, readJwt(auth.token.value).value),
                                          true, now)
    ensures RegisterModelState(bindingOk, form, f) && reg.Registered? && reg.sucesso && auth.Returned?
            && IsNullOrEmpty(auth.token) ==>
              r.response == Redirect("Index", "Home") && r.signIn.None?
    ensures RegisterModelState(bindingOk, form, f) && reg.Registered? && reg.sucesso && auth.Threw? ==>
              r.response == View(RegisterPage(form)) && r.flash == Erro(RegisterErrorPrefix + auth.message) && r.signIn.None?
    ensures RegisterModelState(bindingOk, form, f) && reg.Registered? && reg.sucesso && auth.Returned?
            && !IsNullOrEmpty(auth.token) ==>
              match readJwt(auth.token.value)
              case Success(jwt) =>
                && r.response == Redirect("Index", "Home")
                && r.signIn == Some(Ticket(SessionClaims(form.email.value, auth.token.value, jwt), true, now))
              case Failure(m) =>
                r.response == View(RegisterPage(form)) && r.flash == Erro(RegisterErrorPrefix + m) && r.signIn.None?
  {
    if !RegisterModelState(bindingOk, form, f) then
      AccountOutcome(View(RegisterPage(form)), NoFlash, None, false, [])
    else
      match reg
      case RegisterThrew(m) =>
        AccountOutcome(View(RegisterPage(form)), Erro(RegisterErrorPrefix + m), None, false, [Registrar(form)])
      case Registered(sucesso, mensagem) =>
        if !sucesso then
          AccountOutcome(View(RegisterPage(form)), Erro(mensagem), None, false, [Registrar(form)])
        else
          var calls := [Registrar(form), Autenticar(form.email, form.senha)];
          match auth
          case Threw(m) =>
            AccountOutcome(View(RegisterPage(form)), Erro(RegisterErrorPrefix + m), None, false, calls)
          case Returned(token) =>
            if IsNullOrEmpty(token) then
              AccountOutcome(Redirect("Index", "Home"), Sucesso(RegisterSucceeded), None, false, calls)
            else
              match readJwt(token.value)
              case Failure(m) =>
                AccountOutcome(View(RegisterPage(form)), Erro(RegisterErrorPrefix + m), None, false, calls)
              case Success(jwt) =>
                var ticket := Ticket(SessionClaims(form.email.value, token.value, jwt), true, now);
                AccountOutcome(Redirect("Index", "Home"), Sucesso(RegisterSucceeded), Some(ticket), false, calls)
  }

  /** The authentication cookie the browser holds: none, or the last ticket
      issued to it. */
  type Cookie = Option<SignIn>

  /** The cookie after an account action: signing out deletes it, signing in
      replaces it, anything else keeps it. */
  function NextCookie(before: Cookie, o: AccountOutcome): (c: Cookie)
    ensures o.signOut ==> c.None?
    ensures !o.signOut && o.signIn.Some? ==> c == o.signIn
    ensures !o.signOut && o.signIn.None? ==> c == before
  {
    if o.signOut then None
    else if o.signIn.Some? then o.signIn
    else before
  }

  /** The user a request made at instant `now` authenticates as: the ticket's
      claims while it is unexpired, nobody once `ExpiresUtc` has passed or
      when there is no cookie. */
  function PrincipalAt(cookie: Cookie, now: int): (p: Principal)
    ensures p.SignedIn? <==> cookie.Some? && now < cookie.value.expiresUtc
    ensures p.SignedIn? ==> p.claims == cookie.value.claims
  {
    if cookie.Some? && now < cookie.value.expiresUtc then SignedIn(cookie.value.claims) else Anonymous
  }

  /** The principal of a request made at instant `now` after an account
      action: anonymous after signing out; after signing in, the ticket's
      claims until the ticket expires; otherwise whatever the old cookie
      still authenticates. */
  function NextPrincipal(before: Cookie, o: AccountOutcome, now: int): (p: Principal)
    ensures o.signOut ==> p == Anonymous
    ensures !o.signOut && o.signIn.Some? ==>
              (p == SignedIn(o.signIn.value.claims) <==> now < o.signIn.value.expiresUtc)
              && (now >= o.signIn.value.expiresUtc ==> p == Anonymous)
    ensures !o.signOut && o.signIn.None? ==> p == PrincipalAt(before, now)
  {
    PrincipalAt(NextCookie(before, o), now)
  }

  /** After logout, every action that is not `[AllowAnonymous]` sends the user
      back to the login page. */
  lemma LogoutEndsSession(before: Cookie, now: int, policy: Policy)
    requires !policy.AllowAnonymous?
    ensures Authorize(NextPrincipal(before, Logout(), now), policy) == Challenge
  {
  }

  /** A session started by a login lasts exactly the ticket's lifetime: seven
      days with "remember me", one hour without; from then on every
      protected action sends the user back to the login page. */
  lemma LoginSessionLifetime(form: LoginForm, bindingOk: bool, f: Formats, now: int, auth: TokenReply,
                             readJwt: string -> Result<seq<Claim>, string>, before: Cookie, later: int, policy: Policy)
    requires Login(form, bindingOk, f, now, auth, readJwt).signIn.Some?
    ensures var p := NextPrincipal(before, Login(form, bindingOk, f, now, auth, readJwt), later);
            p.SignedIn? <==> later < (if form.rememberMe then AddDays(now, 7) else AddHours(now, 1))
    ensures var p := NextPrincipal(before, Login(form, bindingOk, f, now, auth, readJwt), later);
            later >= (if form.rememberMe then AddDays(now, 7) else AddHours(now, 1)) && !policy.AllowAnonymous? ==>
              Authorize(p, policy) == Challenge
  {
    var o := Login(form, bindingOk, f, now, auth, readJwt);
    assert o.signIn.value.expiresUtc == if form.rememberMe then AddDays(now, 7) else AddHours(now, 1);
  }

  /** The session's role set is the token's role set: a user signed in with
      the session claims is in a role exactly when the token carries that
      role under "role", "roles" or `ClaimTypes.Role`. */
  lemma SessionRolesAreTokenRoles(email: string, token: string, jwt: seq<Claim>, role: string)
    ensures IsInRole(SessionClaims(email, token, jwt), role)
        <==> (exists j :: 0 <= j < |jwt| && IsRoleClaim(jwt[j]) && jwt[j].value == role)
  {
    var s := SessionClaims(email, token, jwt);
    var rc := RoleClaims(jwt);
    assert !EqualsIgnoreCase(NameType, RoleType);
    assert !EqualsIgnoreCase(JwtType, RoleType);
    RoleClaimsCarry(jwt, role);
    if IsInRole(s, role) {
      var i :| 0 <= i < |s| && EqualsIgnoreCase(s[i].claimType, RoleType) && s[i].value == role;
      assert i >= 2;
      assert rc[i - 2] == s[i];
    }
    if j :| 0 <= j < |jwt| && IsRoleClaim(jwt[j]) && jwt[j].value == role {
      var i :| 0 <= i < |rc| && rc[i].value == role;
      assert s[i + 2] == rc[i];
      assert EqualsIgnoreCase(s[i + 2].claimType, RoleType);
    }
  }

  /** After a successful login the session's identity is the submitted e-mail
      and its roles are the token's roles. */
  lemma LoginEstablishesIdentity(form: LoginForm, bindingOk: bool, f: Formats, now: int, auth: TokenReply,
                                 readJwt: string -> Result<seq<Claim>, string>, role: string)
    requires Login(form, bindingOk, f, now, auth, readJwt).signIn.Some?
    ensures var claims := Login(form, bindingOk, f, now, auth, readJwt).signIn.value.claims;
            var jwt := readJwt(auth.token.value).value;
            && FindFirst(claims, NameType) == Some(Claim(NameType, form.email.value))
            && (IsInRole(claims, role) <==> exists j :: 0 <= j < |jwt| && IsRoleClaim(jwt[j]) && jwt[j].value == role)
  {
    var jwt := readJwt(auth.token.value).value;
    SessionRolesAreTokenRoles(form.email.value, auth.token.value, jwt, role);
    var claims := Login(form, bindingOk, f, now, auth, readJwt).signIn.value.claims;
    assert EqualsIgnoreCase(claims[0].claimType, NameType);
  }

  /** After a registration that signs in, the session's identity is the
      registered e-mail, its roles are the token's roles, and the cookie is
      persistent for seven days whatever the form said. */
  lemma RegisterEstablishesIdentity(form: Registro, bindingOk: bool, f: Formats, now: int, reg: RegisterReply,
                                    auth: TokenReply, readJwt: string -> Result<seq<Claim>, string>, role: string)
    requires Register(form, bindingOk, f, now, reg, auth, readJwt).signIn.Some?
    ensures var ticket := Register(form, bindingOk, f, now, reg, auth, readJwt).signIn.value;
            var jwt := readJwt(auth.token.value).value;
            && FindFirst(ticket.claims, NameType) == Some(Claim(NameType, form.email.value))
            && (IsInRole(ticket.claims, role) <==> exists j :: 0 <= j < |jwt| && IsRoleClaim(jwt[j]) && jwt[j].value == role)
            && ticket.persistent && ticket.expiresUtc == AddDays(now, 7)
  {
    var jwt := readJwt(auth.token.value).value;
    SessionRolesAreTokenRoles(form.email.value, auth.token.value, jwt, role);
    var claims := Register(form, bindingOk, f, now, reg, auth, readJwt).signIn.value.claims;
    assert EqualsIgnoreCase(claims[0].claimType, NameType);
  }
}

=== FILE: annotations.dfy ===
/** The data-annotation attributes of `System.ComponentModel.DataAnnotations`
    used by the view models, as predicates over a property value. */
module Annotations {
  import opened Wrappers
  import opened Text

  /** `[Required]` on a string: not null and not empty or white space only
      (`AllowEmptyStrings` is never set). */
  predicate Required(s: NString)
  {
    !IsNullOrWhiteSpace(s)
  }

  /** `[StringLength(max, MinimumLength = min)]`: a null value passes; otherwise
      the UTF-16 length lies in `min..max`. */
  predicate StringLength(s: NString, max: nat, min: nat)
  {
    s.None? || min <= Utf16Length(s.value) <= max
  }

  /** `[Range(lo, hi)]` on an integer property. */
  predicate Range(v: int, lo: int, hi: int)
  {
    lo <= v <= hi
  }

  /** `[Compare("Other")]`: `object.Equals(value, other)`, so two nulls agree. */
  predicate Compare(s: NString, other: NString)
  {
    s == other
  }

  /** The format validators whose rules belong to the framework:
      `[EmailAddress]` and `[Phone]` on a non-null string. */
  datatype Formats = Formats(isEmail: string -> bool, isPhone: string -> bool)

  /** `[EmailAddress]`: a null value passes; otherwise the framework's check. */
  predicate EmailAddress(s: NString, f: Formats)
  {
    s.None? || f.isEmail(s.value)
  }

  /** `[Phone]`: a null value passes; otherwise the framework's check. */
  predicate Phone(s: NString, f: Formats)
  {
    s.None? || f.isPhone(s.value)
  }
}

=== FILE: claims.dfy ===
/** Security claims as the cookie session stores them: (type, value) pairs,
    the claim-type URIs of `System.Security.Claims.ClaimTypes`, and the
    lookups `ClaimsPrincipal.FindFirst` and `ClaimsPrincipal.IsInRole`. */
module Claims {
  import opened Wrappers
  import opened Text

  datatype Claim = Claim(claimType: string, value: string)

  /** `ClaimTypes.Name`. */
  const NameType: string := "http://schemas.xmlsoap.org/ws/2005/05/identity/claims/name"
  /** `ClaimTypes.Role`, also the role claim type of the cookie identity. */
  const RoleType: string := "http://schemas.microsoft.com/ws/2008/06/identity/claims/role"
  /** The custom claim under which the raw bearer token is kept. */
  const JwtType: string := "JWT"
  /** The subject claim read by the participant profile pages. */
  const SubType: string := "sub"

  /** `FindFirst(type)`: the first claim whose type equals `t` ignoring case. */
  function FindFirst(claims: seq<Claim>, t: string): (r: Option<Claim>)
    ensures r.Some? ==> r.value in claims && EqualsIgnoreCase(r.value.claimType, t)
    ensures r.None? <==> forall i :: 0 <= i < |claims| ==> !EqualsIgnoreCase(claims[i].claimType, t)
    ensures r.Some? ==> exists i :: 0 <= i < |claims| && claims[i] == r.value && NoMatchBefore(claims, t, i)
  {
    if claims == [] then None
    else if EqualsIgnoreCase(claims[0].claimType, t) then Some(claims[0])
    else
      var rest := FindFirst(claims[1..], t);
      if rest.Some? then
        var i :| 0 <= i < |claims| - 1 && claims[1..][i] == rest.value && NoMatchBefore(claims[1..], t, i);
        assert claims[i + 1] == rest.value && NoMatchBefore(claims, t, i + 1);
        rest
      else rest
  }

  /** No claim before position `i` has type `t` (ignoring case). */
  predicate NoMatchBefore(claims: seq<Claim>, t: string, i: nat)
    requires i <= |claims|
  {
    forall j :: 0 <= j < i ==> !EqualsIgnoreCase(claims[j].claimType, t)
  }

  /** `IsInRole(role)`: some claim has the role claim type (ignoring case) and
      exactly the value `role` (ordinal comparison). */
  predicate IsInRole(claims: seq<Claim>, role: string)
  {
    exists i :: 0 <= i < |claims| && EqualsIgnoreCase(claims[i].claimType, RoleType) && claims[i].value == role
  }
}

=== FILE: eventos_controller.dfy ===
/** `EventosController`: listing, showing, creating, editing and deleting
    events, each action's authorization attribute, and the messages left
    for the next page. Every call to `IEventosService` is recorded; its
    replies are inputs. */
module EventosController {
  import opened Wrappers
  import opened Text
  import opened Int32Text
  import opened Claims
  import opened Mvc
  import opened EventosModel

  datatype Action = Index | Details | CreateForm | CreateSubmit | EditForm | EditSubmit | DeleteForm | DeleteConfirmed

  /** The calls made to the events service, in order. */
  datatype EventosCall = GetAll | GetById(id: Int32) | Create(evento: Evento) | Update(id: Int32, evento: Evento) | Delete(id: Int32)

  /** `(bool Sucesso, string Mensagem)` returned by create, update and delete. */
  datatype ServiceReply = ServiceReply(sucesso: bool, mensagem: string)

  /** The rendered view: the event list, or the action's view with its model
      (`View()` without a model for the empty create form). */
  datatype Page = Listing(eventos: seq<Evento>) | Form(view: string, model: Option<Evento>)

  type EventosOutcome = Outcome<Page, EventosCall>

  const NotFound: string := "Evento não encontrado."
  const InvalidId: string := "ID inválido."
  const DeleteForbidden: string := "Você não tem permissão para excluir este evento. Apenas SuperAdmin pode."

  /** The roles of `[Authorize(Roles = "Admin,SuperAdmin")]` and `[Authorize(Roles = "SuperAdmin")]`. */
  const AdminRoles: seq<string> := ["Admin", "SuperAdmin"]
  const SuperAdminRoles: seq<string> := ["SuperAdmin"]

  /** The attribute in force on each action; the class-level `[Authorize]` is
      overridden by `[AllowAnonymous]` and narrowed by the role attributes. */
  function PolicyOf(a: Action): Policy
  {
    match a
    case Index => AllowAnonymous
    case Details => AllowAnonymous
    case CreateForm => InAnyRole(AdminRoles)
    case CreateSubmit => InAnyRole(AdminRoles)
    case EditForm => InAnyRole(AdminRoles)
    case EditSubmit => InAnyRole(AdminRoles)
    case DeleteForm => InAnyRole(SuperAdminRoles)
    case DeleteConfirmed => InAnyRole(SuperAdminRoles)
  }

  predicate IsWriteAction(a: Action)
  {
    a.CreateForm? || a.CreateSubmit? || a.EditForm? || a.EditSubmit?
  }

  /** Who may do what: anyone lists and views; Admin or SuperAdmin creates
      and edits; only SuperAdmin deletes. So deleting implies editing. */
  lemma RoleGating(p: Principal, a: Action)
    ensures (a.Index? || a.Details?) ==> Authorize(p, PolicyOf(a)) == Granted
    ensures IsWriteAction(a) ==>
              (Authorize(p, PolicyOf(a)) == Granted <==>
                 p.SignedIn? && (IsInRole(p.claims, "Admin") || IsInRole(p.claims, "SuperAdmin")))
    ensures (a.DeleteForm? || a.DeleteConfirmed?) ==>
              (Authorize(p, PolicyOf(a)) == Granted <==> p.SignedIn? && IsInRole(p.claims, "SuperAdmin"))
    ensures Authorize(p, PolicyOf(DeleteConfirmed)) == Granted ==> Authorize(p, PolicyOf(EditSubmit)) == Granted
    ensures p.Anonymous? && !(a.Index? || a.Details?) ==> Authorize(p, PolicyOf(a)) == Challenge
  {
    if p.SignedIn? && IsWriteAction(a) {
      if IsInRole(p.claims, "Admin") {
        assert AdminRoles[0] == "Admin";
      } else if IsInRole(p.claims, "SuperAdmin") {
        assert AdminRoles[1] == "SuperAdmin";
      }
    }
    if p.SignedIn? && (a.DeleteForm? || a.DeleteConfirmed?) && IsInRole(p.claims, "SuperAdmin") {
      assert SuperAdminRoles[0] == "SuperAdmin";
    }
    if Authorize(p, PolicyOf(DeleteConfirmed)) == Granted {
      assert AdminRoles[1] == SuperAdminRoles[0];
    }
  }

  /** `Index()`: the listed events, an empty list for a null listing. */
  function IndexAction(listed: Option<seq<Evento>>): (r: EventosOutcome)
    ensures r.calls == [GetAll] && r.flash == NoFlash
    ensures listed.None? ==> r.response == View(Listing([]))
    ensures listed.Some? ==> r.response == View(Listing(listed.value))
  {
    Outcome(View(Listing(listed.GetOr([]))), NoFlash, [GetAll])
  }

  /** The shared shape of `Details`, `Edit` (GET) and `Delete` (GET): look
      the event up, render it in the action's view, or go back to the list
      with "Evento não encontrado.". */
  function ShowOrNotFound(view: string, id: Int32, found: Option<Evento>): (r: EventosOutcome)
    ensures r.calls == [GetById(id)]
    ensures found.None? ==> r.response == Redirect("Index", "Eventos") && r.flash == Erro(NotFound)
    ensures found.Some? ==> r.response == View(Form(view, found)) && r.flash == NoFlash
  {
    if found.None? then Outcome(Redirect("Index", "Eventos"), Erro(NotFound), [GetById(id)])
    else Outcome(View(Form(view, found)), NoFlash, [GetById(id)])
  }

  /** `Details(id)`: the event's details page. */
  function DetailsAction(id: Int32, found: Option<Evento>): (r: EventosOutcome)
    ensures r.calls == [GetById(id)]
    ensures found.None? ==> r.response == Redirect("Index", "Eventos") && r.flash == Erro(NotFound)
    ensures found.Some? ==> r.response == View(Form("Details", found)) && r.flash == NoFlash
  {
    ShowOrNotFound("Details", id, found)
  }

  /** `Edit(id)` (GET): the edit form filled with the event. */
  function EditFormAction(id: Int32, found: Option<Evento>): (r: EventosOutcome)
    ensures r.calls == [GetById(id)]
    ensures found.None? ==> r.response == Redirect("Index", "Eventos") && r.flash == Erro(NotFound)
    ensures found.Some? ==> r.response == View(Form("Edit", found)) && r.flash == NoFlash
  {
    ShowOrNotFound("Edit", id, found)
  }

  /** `Delete(id)` (GET): the deletion confirmation page. */
  function DeleteFormAction(id: Int32, found: Option<Evento>): (r: EventosOutcome)
    ensures r.calls == [GetById(id)]
    ensures found.None? ==> r.response == Redirect("Index", "Eventos") && r.flash == Erro(NotFound)
    ensures found.Some? ==> r.response == View(Form("Delete", found)) && r.flash == NoFlash
  {
    ShowOrNotFound("Delete", id, found)
  }

  /** The three lookup pages redirect to the list on a missing event and
      differ only in the view they render otherwise. */
  lemma LookupPagesAgree(id: Int32, found: Option<Evento>)
    ensures found.None? ==> DetailsAction(id, found) == EditFormAction(id, found) == DeleteFormAction(id, found)
    ensures found.None? ==> DetailsAction(id, found) == Outcome(Redirect("Index", "Eventos"), Erro(NotFound), [GetById(id)])
    ensures found.Some? ==>
              && DetailsAction(id, found).response == View(Form("Details", found))
              && EditFormAction(id, found).response == View(Form("Edit", found))
              && DeleteFormAction(id, found).response == View(Form("Delete", found))
  {
  }

  /** `Create()` (GET): the empty form. */
  function CreateFormAction(): (r: EventosOutcome)
    ensures r.response == View(Form("Create", None)) && r.calls == [] && r.flash == NoFlash
  {
    Outcome(View(Form("Create", None)), NoFlash, [])
  }

  /** The flash key follows the service's flag; the message is passed through. */
  function ReplyFlash(reply: ServiceReply): (f: Flash)
    ensures reply.sucesso ==> f == Sucesso(reply.mensagem)
    ensures !reply.sucesso ==> f == Erro(reply.mensagem)
  {
    if reply.sucesso then Sucesso(reply.mensagem) else Erro(reply.mensagem)
  }

  /** `Create(EventosViewModel)` (POST): an invalid model re-renders without
      calling the service; a valid one is sent, and the form is re-rendered
      whatever the reply, only the flash key following its flag. */
  function CreateSubmitAction(e: Evento, bindingOk: bool, reply: ServiceReply): (r: EventosOutcome)
    ensures r.response == View(Form("Create", Some(e)))
    ensures !(bindingOk && Valid(e)) ==> r.calls == [] && r.flash == NoFlash
    ensures bindingOk && Valid(e) ==> r.calls == [Create(e)] && r.flash == ReplyFlash(reply)
  {
    if !(bindingOk && Valid(e)) then Outcome(View(Form("Create", Some(e))), NoFlash, [])
    else Outcome(View(Form("Create", Some(e))), ReplyFlash(reply), [Create(e)])
  }

  /** An event without slots is refused before any call to the events API,
      whatever the API would have answered. */
  lemma NoSlotsNeverSent(e: Evento, bindingOk: bool, reply: ServiceReply, other: ServiceReply)
    requires e.vagas < 1
    ensures CreateSubmitAction(e, bindingOk, reply).calls == []
    ensures CreateSubmitAction(e, bindingOk, reply) == CreateSubmitAction(e, bindingOk, other)
  {
  }

  /** `Edit(int id, EventosViewModel)` (POST): a route id that differs from
      the body's id is refused before validation and without an update. */
  function EditSubmitAction(id: Int32, e: Evento, bindingOk: bool, reply: ServiceReply): (r: EventosOutcome)
    ensures id != e.id ==> r == Outcome(Redirect("Index", "Eventos"), Erro(InvalidId), [])
    ensures id == e.id ==> r.response == View(Form("Edit", Some(e)))
    ensures id == e.id && !(bindingOk && Valid(e)) ==> r.calls == [] && r.flash == NoFlash
    ensures id == e.id && bindingOk && Valid(e) ==> r.calls == [Update(id, e)] && r.flash == ReplyFlash(reply)
  {
    if id != e.id then Outcome(Redirect("Index", "Eventos"), Erro(InvalidId), [])
    else if !(bindingOk && Valid(e)) then Outcome(View(Form("Edit", Some(e))), NoFlash, [])
    else Outcome(View(Form("Edit", Some(e))), ReplyFlash(reply), [Update(id, e)])
  }

  /** Every update the edit action sends targets the id of the route, which
      is also the id in the body. */
  lemma UpdateTargetsRouteId(id: Int32, e: Evento, bindingOk: bool, reply: ServiceReply, k: nat)
    requires k < |EditSubmitAction(id, e, bindingOk, reply).calls|
    ensures EditSubmitAction(id, e, bindingOk, reply).calls[k] == Update(id, e) && e.id == id
  {
  }

  /** The message shown after a failed delete: the fixed SuperAdmin-only text
      when the service message contains "403", the service message otherwise. */
  function DeleteFailureText(mensagem: string): (t: string)
    ensures Contains(mensagem, "403") ==> t == DeleteForbidden
    ensures !Contains(mensagem, "403") ==> t == mensagem
  {
    if Contains(mensagem, "403") then DeleteForbidden else mensagem
  }

  /** `DeleteConfirmed(int id)` (POST "Delete"): always back to the list. */
  function DeleteConfirmedAction(id: Int32, reply: ServiceReply): (r: EventosOutcome)
    ensures r.response == Redirect("Index", "Eventos") && r.calls == [Delete(id)]
    ensures reply.sucesso ==> r.flash == Sucesso(reply.mensagem)
    ensures !reply.sucesso ==> r.flash == Erro(DeleteFailureText(reply.mensagem))
  {
    if reply.sucesso then Outcome(Redirect("Index", "Eventos"), Sucesso(reply.mensagem), [Delete(id)])
    else if Contains(reply.mensagem, "403") then Outcome(Redirect("Index", "Eventos"), Erro(DeleteForbidden), [Delete(id)])
    else Outcome(Redirect("Index", "Eventos"), Erro(reply.mensagem), [Delete(id)])
  }

  /** The failure message of `DeleteEventoAsync`: a fixed prefix, the status
      code as rendered by the framework, and the response body. */
  function DeleteFailureMessage(status: string, body: string): (m: string)
    ensures var k := |DeletePrefix|;
            && |m| == k + |status| + 2 + |body|
            && m[..k] == DeletePrefix
            && m[k..k + |status|] == status
            && m[k + |status|..k + |status| + 2] == ". "
            && m[k + |status| + 2..] == body
  {
    DeletePrefix + status + ". " + body
  }

  /** The fixed head of the delete failure message. */
  const DeletePrefix: string := "Erro ao apagar evento: "

  /** "403" occurs in the composed failure message exactly when it occurs in
      the rendered status or in the body: the fixed parts of the message
      contain none of its characters, so no occurrence can straddle them. */
  lemma MessageMentions403(status: string, body: string)
    ensures Contains(DeleteFailureMessage(status, body), "403") <==> Contains(status, "403") || Contains(body, "403")
  {
    var pre := DeletePrefix;
    var sep := ". ";
    var head := pre + status;
    var message := DeleteFailureMessage(status, body);
    assert message == head + sep + body;
    if Contains(status, "403") {
      ContainsAfterPrefix(pre, status, "403");
      ContainsBeforeSuffix(head, sep + body, "403");
      assert message == head + (sep + body);
    } else if Contains(body, "403") {
      ContainsAfterPrefix(head + sep, body, "403");
    } else if Contains(message, "403") {
      assert Disjoint(sep, "403");
      assert Contains(head, "403") by {
        ContainsAcross(head, sep, body, "403");
      }
      assert Disjoint(pre, "403");
      assert head == [] + pre + status;
      ContainsAcross([], pre, status, "403");
      assert false;
    }
  }

  /** The user sees the SuperAdmin-only text exactly when the rendered status
      or the response body of the failed delete contains "403", and the
      service message otherwise. */
  lemma ForbiddenRewrite(id: Int32, status: string, body: string)
    ensures var flash := DeleteConfirmedAction(id, ServiceReply(false, DeleteFailureMessage(status, body))).flash;
            flash == if Contains(status, "403") || Contains(body, "403") then Erro(DeleteForbidden)
                     else Erro(DeleteFailureMessage(status, body))
  {
    MessageMentions403(status, body);
  }
}

=== FILE: eventos_model.dfy ===
/** `EventosViewModel`: an event as the forms and the events API carry it,
    with the validation its attributes declare and its initial values. */
module EventosModel {
  import opened Wrappers
  import opened Text
  import opened Int32Text
  import opened Time
  import opened Annotations

  datatype Evento = Evento(
    id: Int32,
    titulo: NString,
    cidade: NString,
    entrada: NString,
    descricao: NString,
    data: Date,
    local: NString,
    vagas: Int32,
    imagemUrl: NString)

  /** `new EventosViewModel()` created at instant `now` (`Data` starts at
      `DateTime.Now`). */
  function NewEvento(now: Date): Evento
  {
    Evento(0, Some(""), Some(""), Some("Gratuita"), Some(""), now, Some(""), 1, Some(""))
  }

  /** The attribute rules of the view model: title required and at most 100
      code units, city and admission required, description required and at
      most 500, venue required and at most 200, slots in `1..int.MaxValue`.
      `Id`, `Data` and `ImagemUrl` carry no rule (`[Required]` on the
      non-nullable `Data` can never fail). */
  predicate Valid(e: Evento)
  {
    && Required(e.titulo) && StringLength(e.titulo, 100, 0)
    && Required(e.cidade)
    && Required(e.entrada)
    && Required(e.descricao) && StringLength(e.descricao, 500, 0)
    && Required(e.local) && StringLength(e.local, 200, 0)
    && Range(e.vagas as int, 1, MaxInt32)
  }

  /** The upper end of the slot range is the largest `int`, so on a 32-bit
      value the range rule is exactly "at least one slot". */
  lemma VagasRuleIsPositivity(e: Evento, v: Int32)
    requires Valid(e)
    ensures Valid(e.(vagas := v)) <==> v >= 1
  {
  }

  /** What a valid event guarantees: non-null, non-blank title, city,
      admission, description and venue; the title within 100 code units
      (so 1 to 100 characters), the description within 500 and the venue
      within 200; at least one slot. */
  lemma ValidFieldBounds(e: Evento)
    requires Valid(e)
    ensures e.titulo.Some? && !AllWhiteSpace(e.titulo.value) && 1 <= |e.titulo.value| <= Utf16Length(e.titulo.value) <= 100
    ensures e.cidade.Some? && !AllWhiteSpace(e.cidade.value)
    ensures e.entrada.Some? && !AllWhiteSpace(e.entrada.value)
    ensures e.descricao.Some? && !AllWhiteSpace(e.descricao.value) && Utf16Length(e.descricao.value) <= 500
    ensures e.local.Some? && !AllWhiteSpace(e.local.value) && Utf16Length(e.local.value) <= 200
    ensures e.vagas >= 1
  {
  }

  /** `ImagemUrl` has no validation attribute: any value, even null, leaves
      validity unchanged. */
  lemma ImagemUrlUnconstrained(e: Evento, url: NString)
    ensures Valid(e.(imagemUrl := url)) == Valid(e)
  {
  }

  /** A fresh form is invalid (its title, city, description and venue are
      empty), while its defaults "Gratuita" and one slot satisfy their own
      rules; filling the four blank fields with short text makes it valid. */
  lemma NewEventoDefaults(now: Date)
    ensures !Valid(NewEvento(now))
    ensures Required(NewEvento(now).entrada) && NewEvento(now).entrada == Some("Gratuita")
    ensures Range(NewEvento(now).vagas as int, 1, MaxInt32)
    ensures Valid(NewEvento(now).(titulo := Some("x"), cidade := Some("x"), descricao := Some("x"), local := Some("x")))
  {
    assert "Gratuita"[0] == 'G';
    assert "x"[0] == 'x';
  }
}

=== FILE: inscricao_dto.dfy ===
/** `InscricaoDTO`: a registration as the registrations API sends and
    receives it. */
module InscricaoDto {
  import opened Wrappers
  import opened Text
  import opened Int32Text
  import opened Time

  datatype InscricaoDTO = InscricaoDTO(
    id: Int32,
    eventoId: Int32,
    nomeEvento: NString,
    participanteId: Int32,
    nomeParticipante: NString,
    dataInscricao: Option<Date>)
}

=== FILE: inscricao_model.dfy ===
/** `InscricaoViewModel`: a registration of a participant for an event,
    denormalised with display fields. `DataInscricao` is declared a plain
    `DateTime` but the service code treats it as nullable, so it is an
    `Option<Date>` here. */
module InscricaoModel {
  import opened Wrappers
  import opened Text
  import opened Int32Text
  import opened Time
  import opened Annotations

  datatype Inscricao = Inscricao(
    id: Int32,
    eventoId: Int32,
    eventoNome: NString,
    participanteId: Int32,
    participanteNome: NString,
    dataInscricao: Option<Date>,
    dataEvento: Date,
    localEvento: NString)

  /** `new InscricaoViewModel()` at instant `now`. */
  function NewInscricao(now: Date): Inscricao
  {
    Inscricao(0, 0, Some(""), 0, Some(""), Some(now), MinDate, Some(""))
  }

  /** The computed `NomeEvento`: `$"{EventoNome} (ID: {EventoId})"`; a null
      name interpolates as the empty string. */
  function NomeEvento(i: Inscricao): string
  {
    i.eventoNome.GetOr("") + " (ID: " + FormatInt(i.eventoId as int) + ")"
  }

  /** Both display names required and at most 100 code units. The `[Required]`
      on the integer ids can never fail. */
  predicate Valid(i: Inscricao)
  {
    && Required(i.eventoNome) && StringLength(i.eventoNome, 100, 0)
    && Required(i.participanteNome) && StringLength(i.participanteNome, 100, 0)
  }

  /** `NomeEvento` starts with the event name and ends with the id in
      parentheses, and the id text parses back to `EventoId`. */
  lemma NomeEventoRoundTrip(i: Inscricao)
    ensures var n := NomeEvento(i); var k := |i.eventoNome.GetOr("")|;
            && k + 7 <= |n|
            && n[..k] == i.eventoNome.GetOr("")
            && n[k..k + 6] == " (ID: "
            && n[|n| - 1] == ')'
            && ParseInt32(n[k + 6..|n| - 1]) == Some(i.eventoId)
  {
    IdTagSlices(i.eventoNome.GetOr(""), FormatInt(i.eventoId as int));
    ParseFormatRoundTrip(i.eventoId);
  }

  /** The pieces of `name (ID: digits)` sit at fixed offsets. */
  lemma IdTagSlices(name: string, digits: string)
    ensures var n := name + " (ID: " + digits + ")"; var k := |name|;
            && |n| == k + 7 + |digits|
            && n[..k] == name
            && n[k..k + 6] == " (ID: "
            && n[|n| - 1] == ')'
            && n[k + 6..|n| - 1] == digits
  {
    var pre := name + " (ID: ";
    var n := pre + digits + ")";
    assert n[..|pre|] == pre;
    assert pre[..|name|] == name && pre[|name|..] == " (ID: ";
    assert n[|pre|..|n| - 1] == digits;
  }

  /** A valid record has both display names non-blank and within 100 UTF-16
      code units (so 1 to 100 characters). */
  lemma ValidNamesBounds(i: Inscricao)
    requires Valid(i)
    ensures i.eventoNome.Some? && !AllWhiteSpace(i.eventoNome.value)
            && 1 <= |i.eventoNome.value| <= Utf16Length(i.eventoNome.value) <= 100
    ensures i.participanteNome.Some? && !AllWhiteSpace(i.participanteNome.value)
            && 1 <= |i.participanteNome.value| <= Utf16Length(i.participanteNome.value) <= 100
  {
  }

  /** The ids carry no constraint: any ids keep a valid record valid. */
  lemma IdsUnconstrained(i: Inscricao, eventoId: Int32, participanteId: Int32)
    ensures Valid(i.(eventoId := eventoId, participanteId := participanteId)) == Valid(i)
  {
  }

  /** A default record is invalid: both names start empty; and its location
      starts empty too. */
  lemma NewInscricaoInvalid(now: Date)
    ensures !Valid(NewInscricao(now))
    ensures NewInscricao(now).localEvento == Some("")
  {
  }
}

=== FILE: inscricao_service.dfy ===
/** `InscricaoService`: lists and creates registrations through the remote
    API and joins each one with its event and participant, and lists the
    events that still have slots. Each HTTP exchange is an input: the reply
    the API gives to a request. */
module InscricaoService {
  import opened Wrappers
  import opened Int32Text
  import opened Time
  import opened Seqs
  import opened EventosModel
  import opened ParticipantesModel
  import opened InscricaoModel
  import opened InscricaoDto

  /** A reply: a non-success status, or success with the deserialised body
      (`None` when the JSON body is `null`). */
  datatype Reply<+T> = NotSuccess | Ok(body: Option<T>)

  /** `resp.IsSuccessStatusCode ? await resp.Content.ReadFromJsonAsync<T>() : null`. */
  function Body<T>(reply: Reply<T>): (r: Option<T>)
    ensures reply.NotSuccess? ==> r.None?
  {
    match reply
    case NotSuccess => None
    case Ok(b) => b
  }

  /** The requests the service sends, in the order it sends them. */
  datatype Request =
    | ListInscricoes
    | PostInscricao(payload: InscricaoDTO)
    | GetEvento(id: Int32)
    | GetParticipante(id: Int32)
    | ListEventos

  /** The remote API as one request sees it: the reply to every request. */
  datatype Api = Api(
    inscricoes: Reply<seq<InscricaoDTO>>,
    post: InscricaoDTO -> Reply<InscricaoDTO>,
    evento: Int32 -> Reply<Evento>,
    participante: Int32 -> Reply<Participante>,
    eventos: Reply<seq<Evento>>)

  const UnknownEvent: string := "Evento desconhecido"
  const UnknownParticipant: string := "Participante desconhecido"

  /** The record keeps the registration's own fields unchanged. */
  predicate CopiesRegistration(r: Inscricao, d: InscricaoDTO)
  {
    r.id == d.id && r.eventoId == d.eventoId && r.participanteId == d.participanteId
    && r.dataInscricao == d.dataInscricao
  }

  /** The record's event fields describe the event lookup: the placeholder
      name, the minimum date and an empty location when it failed; otherwise
      the event's title (placeholder if null), date and city (not its venue). */
  predicate DescribesEvent(r: Inscricao, ev: Option<Evento>)
  {
    match ev
    case None => r.eventoNome == Some(UnknownEvent) && r.dataEvento == MinDate && r.localEvento == Some("")
    case Some(e) =>
      && r.eventoNome == Some(e.titulo.GetOr(UnknownEvent))
      && r.dataEvento == e.data
      && r.localEvento == Some(e.cidade.GetOr(""))
  }

  /** The record's participant name describes the participant lookup. */
  predicate DescribesParticipant(r: Inscricao, pa: Option<Participante>)
  {
    match pa
    case None => r.participanteNome == Some(UnknownParticipant)
    case Some(p) => r.participanteNome == Some(p.nome.GetOr(UnknownParticipant))
  }

  /** The display record built from a registration and its two lookups. */
  function Enrich(d: InscricaoDTO, ev: Option<Evento>, pa: Option<Participante>): (r: Inscricao)
    ensures CopiesRegistration(r, d) && DescribesEvent(r, ev) && DescribesParticipant(r, pa)
  {
    Inscricao(
      d.id,
      d.eventoId,
      Some(if ev.Some? then ev.value.titulo.GetOr(UnknownEvent) else UnknownEvent),
      d.participanteId,
      Some(if pa.Some? then pa.value.nome.GetOr(UnknownParticipant) else UnknownParticipant),
      d.dataInscricao,
      if ev.Some? then ev.value.data else MinDate,
      Some(if ev.Some? then ev.value.cidade.GetOr("") else ""))
  }

  /** The record is the join of registration `d` with the API's replies to
      its event and participant lookups. */
  predicate Joined(api: Api, r: Inscricao, d: InscricaoDTO)
  {
    && CopiesRegistration(r, d)
    && DescribesEvent(r, Body(api.evento(d.eventoId)))
    && DescribesParticipant(r, Body(api.participante(d.participanteId)))
  }

  /** The `k`-th registration's event and participant were requested, in
      that order, right after the listing and the earlier registrations. */
  predicate LookedUp(calls: seq<Request>, k: nat, d: InscricaoDTO)
  {
    2 + 2 * k < |calls|
    && calls[1 + 2 * k] == GetEvento(d.eventoId) && calls[2 + 2 * k] == GetParticipante(d.participanteId)
  }

  /** The lookups made for the registrations `ds`, in order: the event, then
      the participant, of each. */
  function Lookups(ds: seq<InscricaoDTO>): (calls: seq<Request>)
    ensures |calls| == 2 * |ds|
  {
    if ds == [] then []
    else Lookups(ds[..|ds| - 1]) + [GetEvento(ds[|ds| - 1].eventoId), GetParticipante(ds[|ds| - 1].participanteId)]
  }

  /** After the listing request, the lookups of registration `k` sit at
      positions `1 + 2k` and `2 + 2k`. */
  lemma {:induction false} LookupsLayout(ds: seq<InscricaoDTO>, k: nat)
    requires k < |ds|
    ensures LookedUp([ListInscricoes] + Lookups(ds), k, ds[k])
  {
    var init := ds[..|ds| - 1];
    var calls := [ListInscricoes] + Lookups(ds);
    assert calls == [ListInscricoes] + Lookups(init)
                    + [GetEvento(ds[|ds| - 1].eventoId), GetParticipante(ds[|ds| - 1].participanteId)];
    if k < |ds| - 1 {
      LookupsLayout(init, k);
      assert init[k] == ds[k];
    }
  }

  /** `GetAllInscricoesAsync`: one display record per listed registration, in
      list order, after one event and one participant request each; an empty
      result when the list request fails or its body is null. */
  method GetAllInscricoes(api: Api) returns (r: seq<Inscricao>, calls: seq<Request>)
    ensures Body(api.inscricoes).None? ==> r == [] && calls == [ListInscricoes]
    ensures Body(api.inscricoes).Some? ==>
      var ds := Body(api.inscricoes).value;
      && |r| == |ds|
      && (forall k :: 0 <= k < |ds| ==> Joined(api, r[k], ds[k]))
      && |calls| == 1 + 2 * |ds| && calls[0] == ListInscricoes
      && (forall k :: 0 <= k < |ds| ==> LookedUp(calls, k, ds[k]))
  {
    calls := [ListInscricoes];
    r := [];
    var listed := Body(api.inscricoes);
    if listed.None? {
      return;
    }
    var ds := listed.value;
    var n := 0;
    while n < |ds|
      invariant 0 <= n <= |ds|
      invariant |r| == n && calls == [ListInscricoes] + Lookups(ds[..n])
      invariant forall k :: 0 <= k < n ==> Joined(api, r[k], ds[k])
    {
      var d := ds[n];
      var ev := Body(api.evento(d.eventoId));
      var pa := Body(api.participante(d.participanteId));
      calls := calls + [GetEvento(d.eventoId), GetParticipante(d.participanteId)];
      assert ds[..n + 1][..n] == ds[..n] && ds[..n + 1][n] == d;
      assert Lookups(ds[..n + 1]) == Lookups(ds[..n]) + [GetEvento(d.eventoId), GetParticipante(d.participanteId)];
      var e := Enrich(d, ev, pa);
      assert Joined(api, e, d);
      r := r + [e];
      n := n + 1;
    }
    assert ds[..n] == ds;
    forall k | 0 <= k < |ds|
      ensures LookedUp(calls, k, ds[k])
    {
      LookupsLayout(ds, k);
    }
  }

  /** The outcome of `CreateInscricaoAsync`: the caller's model after the
      method assigned its date, the display record (`None` for `null`), and
      the requests sent. */
  datatype Created = Created(model: Inscricao, result: Option<Inscricao>, calls: seq<Request>)

  /** The body posted for a new registration: only the ids and the date. */
  function Payload(m: Inscricao): (d: InscricaoDTO)
    ensures d.eventoId == m.eventoId && d.participanteId == m.participanteId && d.dataInscricao == m.dataInscricao
    ensures d.id == 0 && d.nomeEvento.None? && d.nomeParticipante.None?
  {
    InscricaoDTO(0, m.eventoId, None, m.participanteId, None, m.dataInscricao)
  }

  /** `CreateInscricaoAsync` at instant `now`. The date is filled in only when
      absent; nothing beyond the POST is requested when it fails or returns a
      null body; otherwise the record is built from the registration the API
      returned, with the same placeholder rules as the listing. */
  function CreateInscricao(model: Inscricao, now: Date, api: Api): (r: Created)
    ensures model.dataInscricao.Some? ==> r.model == model
    ensures model.dataInscricao.None? ==> r.model == model.(dataInscricao := Some(now))
    ensures |r.calls| >= 1 && r.calls[0] == PostInscricao(Payload(r.model))
    ensures Body(api.post(Payload(r.model))).None? ==> r.result.None? && r.calls == r.calls[..1]
    ensures Body(api.post(Payload(r.model))).Some? ==>
      var c := Body(api.post(Payload(r.model))).value;
      && r.result.Some?
      && CopiesRegistration(r.result.value, c)
      && DescribesEvent(r.result.value, Body(api.evento(c.eventoId)))
      && DescribesParticipant(r.result.value, Body(api.participante(c.participanteId)))
      && r.calls == r.calls[..1] + [GetEvento(c.eventoId), GetParticipante(c.participanteId)]
  {
    var m := if model.dataInscricao.None? then model.(dataInscricao := Some(now)) else model;
    var payload := Payload(m);
    match Body(api.post(payload))
    case None => Created(m, None, [PostInscricao(payload)])
    case Some(c) =>
      var ev := Body(api.evento(c.eventoId));
      var pa := Body(api.participante(c.participanteId));
      Created(m, Some(Enrich(c, ev, pa)), [PostInscricao(payload), GetEvento(c.eventoId), GetParticipante(c.participanteId)])
  }

  /** `GetEventosDisponiveisAsync`: the listed events that have slots left. */
  function GetEventosDisponiveis(api: Api): (r: seq<Evento>)
    ensures Body(api.eventos).None? ==> r == []
    ensures forall i :: 0 <= i < |r| ==> r[i].vagas > 0
    ensures Body(api.eventos).Some? ==>
      var es := Body(api.eventos).value;
      && (forall i :: 0 <= i < |r| ==> r[i] in es)
      && (forall i :: 0 <= i < |es| && es[i].vagas > 0 ==> es[i] in r)
  {
    match Body(api.eventos)
    case None => []
    case Some(es) => Filter(HasSlots, es)
  }

  predicate HasSlots(e: Evento)
  {
    e.vagas > 0
  }

  /** The available events keep the listing's order and multiplicity: events
      listed one after the other come out as the concatenation of their
      available parts, and every copy of an event with slots is kept. */
  lemma AvailableKeepsOrder(api: Api, es1: seq<Evento>, es2: seq<Evento>, e: Evento)
    requires Body(api.eventos) == Some(es1 + es2)
    ensures GetEventosDisponiveis(api) == Filter(HasSlots, es1) + Filter(HasSlots, es2)
    ensures e.vagas > 0 ==> multiset(GetEventosDisponiveis(api))[e] == multiset(es1 + es2)[e]
  {
    FilterAppend(HasSlots, es1, es2);
    if e.vagas > 0 {
      FilterMultiplicity(HasSlots, es1 + es2, e);
    }
  }
}

=== FILE: int32_text.dfy ===
/** 32-bit integers and their decimal text: `int.ToString()` as used by
    string interpolation, and `int.Parse` with the default
    `NumberStyles.Integer` (surrounding white space, one optional sign,
    decimal digits, a value inside the 32-bit range). */
module Int32Text {
  import opened Wrappers

  const MinInt32: int := -0x8000_0000
  const MaxInt32: int := 0x7FFF_FFFF

  /** C# `int`. */
  newtype Int32 = x: int | -0x8000_0000 <= x <= 0x7FFF_FFFF

  predicate IsDigit(c: char)
  {
    '0' <= c <= '9'
  }

  predicate AllDigits(s: string)
  {
    forall i :: 0 <= i < |s| ==> IsDigit(s[i])
  }

  function DigitValue(c: char): (d: nat)
    requires IsDigit(c)
    ensures d < 10
  {
    c as int - '0' as int
  }

  function DigitChar(d: nat): (c: char)
    requires d < 10
    ensures IsDigit(c) && DigitValue(c) == d
  {
    ('0' as int + d) as char
  }

  /** The value of a run of decimal digits, most significant digit first. */
  function DigitsValue(s: string): nat
    requires AllDigits(s)
  {
    if s == [] then 0 else DigitsValue(s[..|s| - 1]) * 10 + DigitValue(s[|s| - 1])
  }

  /** The shortest decimal digits of `n` ("0" for zero, no leading zeros). */
  function Digits(n: nat): (s: string)
    ensures |s| > 0 && AllDigits(s)
    ensures |s| > 1 ==> s[0] != '0'
  {
    if n < 10 then [DigitChar(n)] else Digits(n / 10) + [DigitChar(n % 10)]
  }

  /** `n.ToString()` under the invariant number format: a leading '-' for
      negative values, then the digits of the magnitude. */
  function FormatInt(n: int): (s: string)
    ensures |s| > 0 && IsDigit(s[|s| - 1])
    ensures n < 0 <==> s[0] == '-'
    ensures n >= 0 ==> AllDigits(s)
  {
    if n < 0 then "-" + Digits(-n) else Digits(n)
  }

  /** The white space `NumberStyles.Integer` skips before and after a number. */
  predicate IsNumberWhite(c: char)
  {
    c == ' ' || '\t' <= c <= '\r'
  }

  function TrimStart(s: string): (t: string)
    ensures |t| <= |s| && t == s[|s| - |t|..]
    ensures t != [] ==> !IsNumberWhite(t[0])
  {
    if s != [] && IsNumberWhite(s[0]) then TrimStart(s[1..]) else s
  }

  function TrimEnd(s: string): (t: string)
    ensures |t| <= |s| && t == s[..|t|]
    ensures t != [] ==> !IsNumberWhite(t[|t| - 1])
  {
    if s != [] && IsNumberWhite(s[|s| - 1]) then TrimEnd(s[..|s| - 1]) else s
  }

  /** Splits an optional leading sign off trimmed number text: whether the
      value is negated, and the text that must be its digits. */
  function SplitSign(t: string): (r: (bool, string))
    ensures |r.1| <= |t|
    ensures r.1 == t || r.1 == t[1..]
  {
    if t != [] && t[0] == '-' then (true, t[1..])
    else if t != [] && t[0] == '+' then (false, t[1..])
    else (false, t)
  }

  /** The value of a digit run under a sign, if it is one and fits in 32 bits. */
  function SignedValue(negative: bool, body: string): Option<Int32>
  {
    if body == [] || !AllDigits(body) then None
    else
      var magnitude := DigitsValue(body) as int;
      var v := if negative then -magnitude else magnitude;
      if MinInt32 <= v <= MaxInt32 then Some(v as Int32) else None
  }

  /** `int.Parse(s)`; `None` stands for the `FormatException` or
      `OverflowException` it throws. */
  function ParseInt32(s: string): Option<Int32>
  {
    var (negative, body) := SplitSign(TrimEnd(TrimStart(s)));
    SignedValue(negative, body)
  }

  lemma {:induction false} DigitsValueOfDigits(n: nat)
    ensures DigitsValue(Digits(n)) == n
  {
    if n >= 10 {
      var s := Digits(n);
      var prefix := Digits(n / 10);
      assert s[..|s| - 1] == prefix;
      DigitsValueOfDigits(n / 10);
    }
  }

  /** Parsing the formatted text of any 32-bit integer gives it back. */
  lemma ParseFormatRoundTrip(n: Int32)
    ensures ParseInt32(FormatInt(n as int)) == Some(n)
  {
    var s := FormatInt(n as int);
    var m: nat := if n < 0 then -(n as int) else n as int;
    assert TrimEnd(TrimStart(s)) == s by { FormatIsTrimmed(n as int); }
    assert SplitSign(s) == (n < 0, Digits(m)) by { FormatSplitsSign(n as int); }
    assert SignedValue(n < 0, Digits(m)) == Some(n) by { SignedDigitsValue(n < 0, m); }
  }

  /** The sign of formatted text splits off as the sign of the number,
      leaving the digits of its magnitude. */
  lemma FormatSplitsSign(n: int)
    ensures SplitSign(FormatInt(n)) == (n < 0, Digits(if n < 0 then -n else n))
  {
    if n < 0 {
      var d := Digits(-n);
      assert FormatInt(n) == "-" + d;
      assert ("-" + d)[1..] == d;
    } else {
      assert FormatInt(n) == Digits(n);
    }
  }

  /** The digits of a magnitude under a sign denote the signed value when it
      fits in 32 bits. */
  lemma SignedDigitsValue(negative: bool, m: nat)
    requires MinInt32 <= (if negative then -(m as int) else m) <= MaxInt32
    ensures SignedValue(negative, Digits(m)) == Some((if negative then -(m as int) else m) as Int32)
  {
    DigitsValueOfDigits(m);
  }

  /** Formatted numbers carry no surrounding white space. */
  lemma FormatIsTrimmed(n: int)
    ensures TrimEnd(TrimStart(FormatInt(n))) == FormatInt(n)
  {
    var s := FormatInt(n);
    assert s[0] == '-' || IsDigit(s[0]);
    assert TrimStart(s) == s;
    assert TrimEnd(s) == s;
  }

  /** The text "0" (the fallback used when a claim is absent) parses to 0. */
  lemma ParseZero()
    ensures ParseInt32("0") == Some(0)
  {
    ParseFormatRoundTrip(0);
  }

  /** Parsing ignores white space in front of the number. */
  lemma {:induction false} ParseSkipsLeadingWhite(c: char, s: string)
    requires IsNumberWhite(c)
    ensures ParseInt32([c] + s) == ParseInt32(s)
  {
    assert ([c] + s)[1..] == s;
  }

  /** Text with a character that is neither a digit, a sign nor number white
      space never parses. */
  lemma {:induction false} ParseRejectsLetters(s: string, i: nat)
    requires i < |s| && !IsDigit(s[i]) && !IsNumberWhite(s[i]) && s[i] != '-' && s[i] != '+'
    ensures ParseInt32(s) == None
  {
    var t0 := TrimStart(s);
    var t := TrimEnd(t0);
    // s[i] survives both trims, since a trim only removes number white space.
    TrimStartKeeps(s, i);
    var j := i - (|s| - |t0|);
    assert t0[j] == s[i];
    TrimEndKeeps(t0, j);
    assert t[j] == s[i];
    var body := SplitSign(t).1;
    if body == t[1..] && body != t {
      assert j != 0;
      assert body[j - 1] == t[j];
    } else {
      assert body[j] == t[j];
    }
    assert !AllDigits(body);
  }

  lemma {:induction false} TrimStartKeeps(s: string, i: nat)
    requires i < |s| && !IsNumberWhite(s[i])
    ensures |s| - |TrimStart(s)| <= i
  {
    if s != [] && IsNumberWhite(s[0]) {
      assert i > 0;
      assert s[1..][i - 1] == s[i];
      TrimStartKeeps(s[1..], i - 1);
    }
  }

  lemma {:induction false} TrimEndKeeps(s: string, i: nat)
    requires i < |s| && !IsNumberWhite(s[i])
    ensures i < |TrimEnd(s)|
  {
    if s != [] && IsNumberWhite(s[|s| - 1]) {
      assert i < |s| - 1;
      assert s[..|s| - 1][i] == s[i];
      TrimEndKeeps(s[..|s| - 1], i);
    }
  }
}

=== FILE: mvc.dfy ===
/** The framework surface the controllers return into, as plain values: the
    action result, the one-shot TempData message, the signed-in principal and
    the `[Authorize]` / `[AllowAnonymous]` decision. */
module Mvc {
  import opened Claims

  /** The message an action leaves in TempData for the next page:
      `TempData["MensagemSucesso"]` or `TempData["MensagemErro"]`. */
  datatype Flash = NoFlash | Sucesso(text: string) | Erro(text: string)

  /** `View(model)`, `RedirectToAction(action, controller)`, or an exception
      the action does not catch (the host turns it into an error page). */
  datatype Response<+P> = View(page: P) | Redirect(action: string, controller: string) | Fault

  /** What one action invocation produces, with the service calls it made in order. */
  datatype Outcome<+P, +C> = Outcome(response: Response<P>, flash: Flash, calls: seq<C>)

  /** The user of a request: no authentication cookie, or the claims of the cookie. */
  datatype Principal = Anonymous | SignedIn(claims: seq<Claim>)

  /** The authorization attribute in force for an action. */
  datatype Policy =
    | AllowAnonymous                 // [AllowAnonymous]
    | AuthenticatedOnly              // [Authorize]
    | InAnyRole(roles: seq<string>)  // [Authorize(Roles = "A,B")]

  /** Cookie authorization: an anonymous user is challenged (sent to
      /Account/Login), a signed-in user lacking every listed role is forbidden
      (sent to /Account/AccessDenied). */
  datatype Access = Granted | Challenge | Forbidden

  function Authorize(p: Principal, policy: Policy): (a: Access)
    ensures policy.AllowAnonymous? ==> a == Granted
    ensures p.Anonymous? && !policy.AllowAnonymous? ==> a == Challenge
    ensures p.SignedIn? ==> a != Challenge
    ensures policy.AuthenticatedOnly? && p.SignedIn? ==> a == Granted
    ensures policy.InAnyRole? && p.SignedIn? ==>
              (a == Granted <==> exists i :: 0 <= i < |policy.roles| && IsInRole(p.claims, policy.roles[i]))
  {
    match policy
    case AllowAnonymous => Granted
    case AuthenticatedOnly => if p.Anonymous? then Challenge else Granted
    case InAnyRole(roles) =>
      if p.Anonymous? then Challenge
      else if exists i :: 0 <= i < |roles| && IsInRole(p.claims, roles[i]) then Granted
      else Forbidden
  }
}

=== FILE: participantes_controller.dfy ===
/** `ParticipantesController`: the signed-in user's own profile, addressed
    by the integer in the session's "sub" claim. Every call to
    `IParticipantesService` is recorded; its replies are inputs. */
module ParticipantesController {
  import opened Wrappers
  import opened Text
  import opened Int32Text
  import opened Claims
  import opened Mvc
  import opened Annotations
  import opened ParticipantesModel
  import AccountController

  /** The calls made to the participants service, in order. */
  datatype ParticipantesCall = GetById(id: Int32) | Update(id: Int32, participante: Participante)

  /** A profile rendered in the action's view. */
  datatype Page = Profile(view: string, participante: Participante)

  type ParticipantesOutcome = Outcome<Page, ParticipantesCall>

  const LoadFailed: string := "Não foi possível carregar os dados do participante."
  const NotFound: string := "Participante não encontrado."
  const NotYours: string := "Não é permitido editar outro participante."
  const Updated: string := "Perfil atualizado com sucesso!"
  const UpdateErrorPrefix: string := "Erro ao atualizar perfil: "

  /** `int.Parse(User.FindFirst("sub")?.Value ?? "0")`; `None` is the
      exception `int.Parse` throws on text that is not a 32-bit integer. */
  function SubjectId(claims: seq<Claim>): (r: Option<Int32>)
    ensures FindFirst(claims, SubType).None? ==> r == Some(0)
  {
    ParseZero();
    ParseInt32(FindFirst(claims, SubType).GetOr(Claim(SubType, "0")).value)
  }

  /** The id is read back from the first "sub" claim: a claim holding the
      decimal text of `n` yields `n`. */
  lemma SubjectIdReadsFirstSub(claims: seq<Claim>, n: Int32)
    requires FindFirst(claims, SubType).Some? && FindFirst(claims, SubType).value.value == FormatInt(n as int)
    ensures SubjectId(claims) == Some(n)
  {
    ParseFormatRoundTrip(n);
  }

  /** A first "sub" claim holding any character other than a digit, a sign
      or number white space (a letter of any case or script, punctuation)
      makes `int.Parse` throw. */
  lemma SubjectIdRejectsLetters(claims: seq<Claim>, i: nat)
    requires FindFirst(claims, SubType).Some?
    requires var v := FindFirst(claims, SubType).value.value;
             i < |v| && !IsDigit(v[i]) && !IsNumberWhite(v[i]) && v[i] != '-' && v[i] != '+'
    ensures SubjectId(claims).None?
  {
    var v := FindFirst(claims, SubType).value.value;
    assert SubjectId(claims) == ParseInt32(v);
    ParseRejectsLetters(v, i);
  }

  /** A session built by the login (or registration) action holds no "sub"
      claim, so the profile pages of such a session always address
      participant 0. */
  lemma LoginSessionAddressesParticipantZero(email: string, token: string, jwt: seq<Claim>)
    ensures SubjectId(AccountController.SessionClaims(email, token, jwt)) == Some(0)
  {
    var s := AccountController.SessionClaims(email, token, jwt);
    var roles := AccountController.RoleClaims(jwt);
    assert |NameType| != |SubType| && |RoleType| != |SubType|;
    forall i | 0 <= i < |s|
      ensures !EqualsIgnoreCase(s[i].claimType, SubType)
    {
      if i == 0 {
        assert s[i].claimType == NameType;
      } else if i == 1 {
        assert s[i].claimType == JwtType;
        assert UpperAscii(JwtType[0]) != UpperAscii(SubType[0]);
      } else {
        assert s[i] == roles[i - 2];
        assert s[i].claimType == RoleType;
      }
    }
    assert FindFirst(s, SubType).None?;
  }

  /** `Index()`: the profile of the subject, or back home when it cannot be
      loaded; an unparsable "sub" escapes as an exception. */
  function IndexAction(claims: seq<Claim>, lookup: Int32 -> Option<Participante>): (r: ParticipantesOutcome)
    ensures SubjectId(claims).None? ==> r == Outcome(Fault, NoFlash, [])
    ensures SubjectId(claims).Some? ==>
              var id := SubjectId(claims).value;
              && r.calls == [GetById(id)]
              && (lookup(id).None? ==> r.response == Redirect("Index", "Home") && r.flash == Erro(LoadFailed))
              && (lookup(id).Some? ==> r.response == View(Profile("Index", lookup(id).value)) && r.flash == NoFlash)
  {
    match SubjectId(claims)
    case None => Outcome(Fault, NoFlash, [])
    case Some(id) =>
      match lookup(id)
      case None => Outcome(Redirect("Index", "Home"), Erro(LoadFailed), [GetById(id)])
      case Some(p) => Outcome(View(Profile("Index", p)), NoFlash, [GetById(id)])
  }

  /** `Edit()` (GET): the edit form for the subject's profile, or back to the
      profile page with "Participante não encontrado.". */
  function EditFormAction(claims: seq<Claim>, lookup: Int32 -> Option<Participante>): (r: ParticipantesOutcome)
    ensures SubjectId(claims).None? ==> r == Outcome(Fault, NoFlash, [])
    ensures SubjectId(claims).Some? ==>
              var id := SubjectId(claims).value;
              && r.calls == [GetById(id)]
              && (lookup(id).None? ==> r.response == Redirect("Index", "Participantes") && r.flash == Erro(NotFound))
              && (lookup(id).Some? ==> r.response == View(Profile("Edit", lookup(id).value)) && r.flash == NoFlash)
  {
    match SubjectId(claims)
    case None => Outcome(Fault, NoFlash, [])
    case Some(id) =>
      match lookup(id)
      case None => Outcome(Redirect("Index", "Participantes"), Erro(NotFound), [GetById(id)])
      case Some(p) => Outcome(View(Profile("Edit", p)), NoFlash, [GetById(id)])
  }

  /** The profile page and the edit form read the same profile: both look up
      the subject's id once, fail together on an unparsable "sub", render
      the same profile when it is found, and differ only in where they send
      the user, and with which message, when it is not. */
  lemma ProfilePagesAgree(claims: seq<Claim>, lookup: Int32 -> Option<Participante>)
    ensures IndexAction(claims, lookup).calls == EditFormAction(claims, lookup).calls
    ensures IndexAction(claims, lookup).response.Fault? <==> SubjectId(claims).None?
    ensures EditFormAction(claims, lookup).response.Fault? <==> SubjectId(claims).None?
    ensures SubjectId(claims).Some? && lookup(SubjectId(claims).value).Some? ==>
              var p := lookup(SubjectId(claims).value).value;
              && IndexAction(claims, lookup).response == View(Profile("Index", p))
              && EditFormAction(claims, lookup).response == View(Profile("Edit", p))
    ensures SubjectId(claims).Some? && lookup(SubjectId(claims).value).None? ==>
              && IndexAction(claims, lookup) == Outcome(Redirect("Index", "Home"), Erro(LoadFailed), [GetById(SubjectId(claims).value)])
              && EditFormAction(claims, lookup) == Outcome(Redirect("Index", "Participantes"), Erro(NotFound), [GetById(SubjectId(claims).value)])
  {
  }

  /** With a session built at login both profile pages look up participant 0. */
  lemma LoginSessionProfilePages(email: string, token: string, jwt: seq<Claim>, lookup: Int32 -> Option<Participante>)
    ensures var claims := AccountController.SessionClaims(email, token, jwt);
            IndexAction(claims, lookup).calls == EditFormAction(claims, lookup).calls == [GetById(0)]
  {
    LoginSessionAddressesParticipantZero(email, token, jwt);
  }

  /** `Edit(ParticipantesViewModel)` (POST). `parseError` is the message of
      the exception `int.Parse` throws, caught by the action; `updated` is
      the service's reply, which the action ignores. */
  function EditSubmitAction(model: Participante, bindingOk: bool, f: Formats, claims: seq<Claim>,
                            parseError: string, updated: Option<Participante>): (r: ParticipantesOutcome)
    ensures !(bindingOk && Valid(model, f)) ==> r == Outcome(View(Profile("Edit", model)), NoFlash, [])
    ensures bindingOk && Valid(model, f) && SubjectId(claims).None? ==>
              r == Outcome(View(Profile("Edit", model)), Erro(UpdateErrorPrefix + parseError), [])
    ensures bindingOk && Valid(model, f) && SubjectId(claims).Some? && model.id != SubjectId(claims).value ==>
              r == Outcome(Redirect("Index", "Participantes"), Erro(NotYours), [])
    ensures bindingOk && Valid(model, f) && SubjectId(claims) == Some(model.id) ==>
              r == Outcome(Redirect("Index", "Participantes"), Sucesso(Updated), [Update(model.id, model)])
  {
    if !(bindingOk && Valid(model, f)) then Outcome(View(Profile("Edit", model)), NoFlash, [])
    else
      match SubjectId(claims)
      case None => Outcome(View(Profile("Edit", model)), Erro(UpdateErrorPrefix + parseError), [])
      case Some(id) =>
        if model.id != id then Outcome(Redirect("Index", "Participantes"), Erro(NotYours), [])
        else Outcome(Redirect("Index", "Participantes"), Sucesso(Updated), [Update(id, model)])
  }

  /** Ownership: the only profile ever updated is the subject's own, and the
      outcome does not depend on what the update returned. */
  lemma UpdatesOnlyOwnProfile(model: Participante, bindingOk: bool, f: Formats, claims: seq<Claim>,
                              parseError: string, updated: Option<Participante>, other: Option<Participante>, k: nat)
    requires k < |EditSubmitAction(model, bindingOk, f, claims, parseError, updated).calls|
    ensures SubjectId(claims) == Some(model.id)
    ensures EditSubmitAction(model, bindingOk, f, claims, parseError, updated).calls[k] == Update(model.id, model)
    ensures EditSubmitAction(model, bindingOk, f, claims, parseError, updated)
         == EditSubmitAction(model, bindingOk, f, claims, parseError, other)
  {
  }

  /** A user signed in through the account pages can only ever update
      participant 0. */
  lemma LoginSessionUpdatesOnlyZero(email: string, token: string, jwt: seq<Claim>, model: Participante,
                                    bindingOk: bool, f: Formats, parseError: string, updated: Option<Participante>)
    requires EditSubmitAction(model, bindingOk, f, AccountController.SessionClaims(email, token, jwt), parseError, updated).calls != []
    ensures model.id == 0
  {
    LoginSessionAddressesParticipantZero(email, token, jwt);
  }
}

=== FILE: participantes_model.dfy ===
/** `ParticipantesViewModel`: a participant profile and its validation. */
module ParticipantesModel {
  import opened Wrappers
  import opened Text
  import opened Int32Text
  import opened Annotations

  datatype Participante = Participante(id: Int32, nome: NString, email: NString, telefone: NString)

  function NewParticipante(): Participante
  {
    Participante(0, Some(""), Some(""), Some(""))
  }

  /** Name required and at most 100 code units, e-mail required and well
      formed, phone only format-checked. */
  predicate Valid(p: Participante, f: Formats)
  {
    && Required(p.nome) && StringLength(p.nome, 100, 0)
    && Required(p.email) && EmailAddress(p.email, f)
    && Phone(p.telefone, f)
  }

  /** A valid profile has a non-blank name of at most 100 code units and a
      non-blank e-mail accepted by the format check. */
  lemma ValidProfileBounds(p: Participante, f: Formats)
    requires Valid(p, f)
    ensures p.nome.Some? && !AllWhiteSpace(p.nome.value) && 1 <= |p.nome.value| <= Utf16Length(p.nome.value) <= 100
    ensures p.email.Some? && !AllWhiteSpace(p.email.value) && f.isEmail(p.email.value)
  {
  }

  /** The phone is optional: a missing phone never makes a profile invalid, and
      without a phone validity depends on name and e-mail alone. */
  lemma TelefoneOptional(p: Participante, f: Formats)
    ensures Valid(p, f) ==> Valid(p.(telefone := None), f)
    ensures Valid(p.(telefone := None), f) <==>
              Required(p.nome) && StringLength(p.nome, 100, 0) && Required(p.email) && EmailAddress(p.email, f)
  {
  }

  /** The e-mail presence rule holds whatever the format validator accepts. */
  lemma EmailRequired(p: Participante, f: Formats)
    requires IsNullOrWhiteSpace(p.email)
    ensures !Valid(p, f)
  {
  }

  lemma NewParticipanteInvalid(f: Formats)
    ensures !Valid(NewParticipante(), f)
  {
  }
}

=== FILE: registro_model.dfy ===
/** `RegistroViewModel`: the account registration form and its validation. */
module RegistroModel {
  import opened Wrappers
  import opened Text
  import opened Annotations

  datatype Registro = Registro(
    nome: NString,
    email: NString,
    telefone: NString,
    senha: NString,
    confirmSenha: NString)

  /** `new RegistroViewModel()`: `Nome` is a nullable string left null, the
      others start empty. */
  function NewRegistro(): Registro
  {
    Registro(None, Some(""), Some(""), Some(""), Some(""))
  }

  /** All five fields required, e-mail and phone formats, a password of 6 to
      100 code units, and the confirmation equal to the password. */
  predicate Valid(r: Registro, f: Formats)
  {
    && Required(r.nome)
    && Required(r.email) && EmailAddress(r.email, f)
    && Required(r.telefone) && Phone(r.telefone, f)
    && Required(r.senha) && StringLength(r.senha, 100, 6)
    && Required(r.confirmSenha) && Compare(r.confirmSenha, r.senha)
  }

  /** Each of the five fields is required: a null or blank one makes the
      form invalid, whatever the others hold. */
  lemma AllFieldsRequired(r: Registro, f: Formats)
    requires IsNullOrWhiteSpace(r.nome) || IsNullOrWhiteSpace(r.email) || IsNullOrWhiteSpace(r.telefone)
             || IsNullOrWhiteSpace(r.senha) || IsNullOrWhiteSpace(r.confirmSenha)
    ensures !Valid(r, f)
  {
  }

  /** The confirmation has no length attribute of its own, yet in a valid form
      it equals the password and so inherits the 6..100 bound. */
  lemma ConfirmationInheritsLength(r: Registro, f: Formats)
    requires Valid(r, f)
    ensures r.confirmSenha == r.senha
    ensures r.confirmSenha.Some? && 6 <= Utf16Length(r.confirmSenha.value) <= 100
  {
  }

  /** A mismatched confirmation makes any form invalid, whatever else it holds. */
  lemma MismatchInvalid(r: Registro, f: Formats)
    requires r.confirmSenha != r.senha
    ensures !Valid(r, f)
  {
  }

  /** The password bound counts UTF-16 code units, not characters: three
      characters outside the Basic Multilingual Plane already meet the
      minimum of six. */
  lemma PasswordLengthCountsCodeUnits()
    ensures StringLength(Some("\U{1F600}\U{1F600}\U{1F600}"), 100, 6)
    ensures !StringLength(Some("abc"), 100, 6)
  {
  }

  lemma NewRegistroInvalid(f: Formats)
    ensures !Valid(NewRegistro(), f)
  {
  }
}

=== FILE: seqs.dfy ===
/** LINQ `Where` over sequences, and the facts about it that the model uses. */
module Seqs {

  /** `s.Where(p)`: the elements of `s` satisfying `p`, in their original order. */
  function Filter<T>(p: T -> bool, s: seq<T>): (r: seq<T>)
    ensures |r| <= |s|
    ensures forall i :: 0 <= i < |r| ==> r[i] in s && p(r[i])
    ensures forall i :: 0 <= i < |s| && p(s[i]) ==> s[i] in r
  {
    if s == [] then []
    else if p(s[0]) then [s[0]] + Filter(p, s[1..])
    else Filter(p, s[1..])
  }

  /** Filtering distributes over concatenation: the relative order of the
      kept elements is exactly their order in the input. */
  lemma {:induction false} FilterAppend<T>(p: T -> bool, s: seq<T>, t: seq<T>)
    ensures Filter(p, s + t) == Filter(p, s) + Filter(p, t)
  {
    if s == [] {
      assert s + t == t;
    } else {
      assert (s + t)[1..] == s[1..] + t;
      FilterAppend(p, s[1..], t);
    }
  }

  /** Filtering keeps every occurrence of a kept value: nothing is deduplicated. */
  lemma {:induction false} FilterMultiplicity<T>(p: T -> bool, s: seq<T>, x: T)
    requires p(x)
    ensures multiset(Filter(p, s))[x] == multiset(s)[x]
  {
    if s != [] {
      assert s == [s[0]] + s[1..];
      FilterMultiplicity(p, s[1..], x);
    }
  }
}

=== FILE: text.dfy ===
/** The .NET string primitives the core relies on: `char.IsWhiteSpace`,
    `string.IsNullOrEmpty`, `string.IsNullOrWhiteSpace`, `string.Length`
    (UTF-16 code units), ordinal `Contains` and ordinal-ignore-case equality. */
module Text {
  import opened Wrappers

  /** A C# `string` reference, which may be `null`. */
  type NString = Option<string>

  /** `char.IsWhiteSpace`: the Unicode categories Zs, Zl and Zp plus the
      control characters U+0009..U+000D and U+0085. */
  predicate IsWhiteSpace(c: char)
  {
    || c == ' ' || ('\t' <= c <= '\r') || c == '\U{0085}' || c == '\U{00A0}'
    || c == '\U{1680}' || ('\U{2000}' <= c <= '\U{200A}') || c == '\U{2028}'
    || c == '\U{2029}' || c == '\U{202F}' || c == '\U{205F}' || c == '\U{3000}'
  }

  predicate AllWhiteSpace(s: string)
  {
    forall i :: 0 <= i < |s| ==> IsWhiteSpace(s[i])
  }

  /** `string.IsNullOrEmpty`. */
  predicate IsNullOrEmpty(s: NString)
  {
    s.None? || s.value == ""
  }

  /** `string.IsNullOrWhiteSpace`: null, empty, or only white-space characters. */
  predicate IsNullOrWhiteSpace(s: NString)
  {
    s.None? || AllWhiteSpace(s.value)
  }

  /** `string.Length` counts UTF-16 code units: a character outside the Basic
      Multilingual Plane is a surrogate pair and counts twice. */
  function Utf16Length(s: string): (n: nat)
    ensures |s| <= n <= 2 * |s|
  {
    if s == [] then 0
    else (if s[0] as int > 0xFFFF then 2 else 1) + Utf16Length(s[1..])
  }

  /** Ordinal `string.Contains(needle)`. */
  predicate Contains(s: string, needle: string)
  {
    needle <= s || (s != [] && Contains(s[1..], needle))
  }

  function UpperAscii(c: char): char
  {
    if 'a' <= c <= 'z' then (c as int - 32) as char else c
  }

  /** `string.Equals(a, b, StringComparison.OrdinalIgnoreCase)`, with case
      folding restricted to the ASCII letters. */
  predicate EqualsIgnoreCase(a: string, b: string)
  {
    |a| == |b| && forall i :: 0 <= i < |a| ==> UpperAscii(a[i]) == UpperAscii(b[i])
  }

  /** Text found in a string is still found after anything is put in front of it. */
  lemma {:induction false} ContainsAfterPrefix(p: string, s: string, needle: string)
    requires Contains(s, needle)
    ensures Contains(p + s, needle)
  {
    if p == [] {
      assert p + s == s;
    } else {
      assert (p + s)[1..] == p[1..] + s;
      ContainsAfterPrefix(p[1..], s, needle);
    }
  }

  /** Text found in a string is still found after anything is appended to it. */
  lemma {:induction false} ContainsBeforeSuffix(s: string, q: string, needle: string)
    requires Contains(s, needle)
    ensures Contains(s + q, needle)
  {
    if needle <= s {
      assert (s + q)[..|needle|] == s[..|needle|];
    } else {
      assert (s + q)[1..] == s[1..] + q;
      ContainsBeforeSuffix(s[1..], q, needle);
    }
  }

  /** No character of `sep` occurs in `needle`. */
  predicate Disjoint(sep: string, needle: string)
  {
    forall i, j :: 0 <= i < |sep| && 0 <= j < |needle| ==> sep[i] != needle[j]
  }

  /** A needle sharing no character with a leading separator is found after
      the separator or not at all. */
  lemma {:induction false} ContainsSkipsSeparator(sep: string, b: string, needle: string)
    requires needle != [] && Disjoint(sep, needle)
    requires Contains(sep + b, needle)
    ensures Contains(b, needle)
  {
    if sep == [] {
      assert sep + b == b;
    } else {
      assert needle[0] != sep[0];
      assert !(needle <= sep + b);
      assert (sep + b)[1..] == sep[1..] + b;
      ContainsSkipsSeparator(sep[1..], b, needle);
    }
  }

  /** The separator's first character sits right after `a`. */
  lemma SeparatorAt(a: string, sep: string, b: string)
    requires sep != []
    ensures (a + sep + b)[|a|] == sep[0]
  {
  }

  /** A needle sharing no character with a non-empty separator cannot straddle
      it: an occurrence in `a + sep + b` lies inside `a` or inside `b`. */
  lemma {:induction false} ContainsAcross(a: string, sep: string, b: string, needle: string)
    requires needle != [] && sep != [] && Disjoint(sep, needle)
    requires Contains(a + sep + b, needle)
    ensures Contains(a, needle) || Contains(b, needle)
  {
    if a == [] {
      assert a + sep + b == sep + b;
      ContainsSkipsSeparator(sep, b, needle);
    } else if needle <= a + sep + b {
      if |needle| <= |a| {
        assert needle == a[..|needle|];
        assert needle <= a;
      } else {
        // the needle would cover the separator's first character
        SeparatorAt(a, sep, b);
        assert false;
      }
    } else {
      assert (a + sep + b)[1..] == a[1..] + sep + b;
      ContainsAcross(a[1..], sep, b, needle);
    }
  }
}

=== FILE: time.dfy ===
/** `DateTime` and `DateTimeOffset` values as counts of 100-nanosecond ticks.
    The clock is never read by the model: "now" is always a parameter. */
module Time {

  /** A `DateTime`; `DateTime.MinValue` is tick 0. */
  type Date = nat

  const MinDate: Date := 0

  const TicksPerHour: nat := 36_000_000_000
  const TicksPerDay: nat := 24 * TicksPerHour

  /** `AddHours(h)` / `AddDays(d)` on an instant, as a tick offset. */
  function AddHours(t: int, h: nat): int { t + h * TicksPerHour }
  function AddDays(t: int, d: nat): int { t + d * TicksPerDay }
}

=== FILE: wrappers.dfy ===
/** Failure-carrying wrappers used across the model: `Option` stands for a C#
    reference that may be `null`, `Result` for a call that either returns a
    value or throws an exception with a message. */
module Wrappers {

  datatype Option<+T> = None | Some(value: T) {

    /** The C# null-coalescing operator `x ?? d`. */
    function GetOr(default: T): (r: T)
      ensures Some? ==> r == value
      ensures None? ==> r == default
    {
      match this
      case Some(v) => v
      case None => default
    }
  }

  datatype Result<+T, +E> = Success(value: T) | Failure(error: E)
}
